=== FILE: README.md ===
# TroopsTo scheduling core in Dafny

TroopsTo keeps a platoon roster and a list of tasks. It assigns soldiers to tasks, but only soldiers who are free for the task's time window. This project models the parts of the Spring backend and the React client that decide things, and proves what they promise.

- **Conflict engine** (`time_overlap.dfy`, `soldier_service.dfy`, `task_service.dfy`, `soldier_controller.dfy`, `entities.dfy`)
  - Overlap is strict: `s1 < e2 && s2 < e1`.
  - Dates are parsed by an abstract partial parser. A failed parse is an error outcome.
  - `hasConflict` is a loop over a soldier's task set.
  - `assignSoldiers` is a loop that updates the two sides of the task/soldier relation in place. It stops at the first failure.
  - `getAvailableSoldiers` is an ordered filter of the roster with an optional excluded task.
  - `checkConflict` lists the overlapping tasks.
  - The JPA entities `Task` and `Soldier` are classes with setters and the lazy `getAssigned`.
  - Repository storage is a map from id to entity; the repositories' query methods are left out.
- **Calendar page** (`calendar.dfy`)
  - Civil-date arithmetic as ECMA-262 `Date` performs it (DayFromYear, MakeDay, WeekDay). From it follow the Gregorian month length and the weekday of the first of the month.
  - The per-day task buckets use an inclusive overlap test.
  - A cell shows at most three tasks.
  - Month navigation wraps at the year ends.
- **Client state**
  - The soldier picker's selection set (`soldier_selector.dfy`).
  - The task and soldier forms (`task_add.dfy`, `soldier_add.dfy`).
  - The sign-up form (`signup_page.dfy`).
  - The login state over the browser's storage (`auth_provider.dfy`).
  - The roster and task list updates (`platoon_page.dfy`, `task_page.dfy`, `lists.dfy`).
  - `apiUrl` (`api.dfy`).
- **Small backend tables**
  - Registration defaults and lookups (`profile_service.dfy`).
  - The session table (`profile_controller.dfy`).
  - The `DATABASE_URL` to JDBC translation (`database_config.dfy`).

How the code is modelled:

- Code that updates state in place is a `class`:
  - React `useState` variables are fields, and handlers are methods.
  - Server replies, the signed-in user and the clock are method parameters.
- Code that computes a value is a function. Properties that relate several calls are lemmas.
- Shared building blocks:
  - `text.dfy`: JavaScript and Java `split`, and integer rendering.
  - `client_types.dfy`: the client's record shapes.
  - `wrappers.dfy`: `Option` and `Result`.

Where the code departs from what it evidently means, the classes follow the code as written, and a corrected definition sits beside them (see Findings):

- `SignupPage.SignupForm.ValidateForm` sets validity as the page does.
- `DatabaseConfig.DataSourceFor` splits userinfo as the configuration class does. `DatabaseConfig.IntendedDataSource` is the same translation with the corrected split.

## Model

| member | source | states |
|---|---|---|
| TimeOverlap.InvalidDate | src/main/java/kong/com/troopsto/service/SoldierService.java:62 | The `IllegalArgumentException` message for an unparseable date: "Invalid date format: " followed by the input. |
| TimeOverlap.StrictOverlap | src/main/java/kong/com/troopsto/service/SoldierService.java:66-73 | For non-empty intervals: the later start comes before the earlier end. Intervals that only touch, or lie apart, do not overlap. |
| TimeOverlap.ParseDateTime | src/main/java/kong/com/troopsto/service/SoldierService.java:52-64 | A date that parses gives its instant. Any other gives the error "Invalid date format: " followed by the input. |
| TimeOverlap.TimesOverlap | src/main/java/kong/com/troopsto/service/SoldierService.java:66-73 | Succeeds iff all four dates parse, and then answers the strict overlap `s1 < e2 && s2 < e1`. Otherwise the error names the first of the four, in argument order, that fails. |
| TimeOverlap.OverlapSymmetric | src/main/java/kong/com/troopsto/controller/SoldierController.java:127-133 | Swapping the two intervals gives the same answer. |
| TimeOverlap.TouchingIsNoOverlap | src/main/java/kong/com/troopsto/service/TaskService.java:93 | Intervals that only share an endpoint do not overlap, in either order. |
| TimeOverlap.SelfOverlap | src/main/java/kong/com/troopsto/service/TaskService.java:87-94 | An interval overlaps itself iff start < end. |
| SoldierService.Compare | src/main/java/kong/com/troopsto/service/SoldierService.java:45 | One comparison of the loop: `timesOverlap(newStart, newEnd, t.start, t.end)`, with its parse errors. |
| SoldierService.NoConflict | src/main/java/kong/com/troopsto/service/SoldierService.java:43-50 | What a `false` answer means: every task of the set compares without error and none overlaps the window. |
| SoldierService.AllComparable | src/main/java/kong/com/troopsto/service/SoldierService.java:43-50 | Every task of the set compares without a parse error, so the loop cannot throw. |
| SoldierService.HasConflict | src/main/java/kong/com/troopsto/service/SoldierService.java:43-50 | Whatever order the set is walked in: false iff every task compares as non-overlapping; true only when some task really overlaps; an error only when some comparison raises it; no error when every comparison parses. |
| SoldierService.NoConflictSubset | src/main/java/kong/com/troopsto/service/SoldierService.java:43-50 | Fewer tasks cannot create a conflict. |
| SoldierService.NoTasksNoConflict | src/main/java/kong/com/troopsto/service/SoldierService.java:44-49 | A soldier with no tasks never conflicts, even when the window's dates do not parse. |
| SoldierService.BadStartIsReported | src/main/java/kong/com/troopsto/service/SoldierService.java:58-63 | If the soldier has any task and the window start does not parse, every comparison fails with "Invalid date format: <start>". |
| TaskService.ConflictMessage | src/main/java/kong/com/troopsto/service/TaskService.java:51-53 | The rejection message "Soldier <firstName> has a conflicting task". |
| TaskService.Named | src/main/java/kong/com/troopsto/service/TaskService.java:47-49 | The soldiers that a set of ids names in the repository; unknown ids name none. |
| TaskService.NonEmptyWindow | src/main/java/kong/com/troopsto/service/TaskService.java:51 | Both of the task's dates parse and its start is before its end. |
| TaskService.DistinctEntities | src/main/java/kong/com/troopsto/service/TaskService.java:47-49 | Distinct requested ids load distinct soldier objects, as a JPA repository guarantees. |
| TaskService.RejectedFor | src/main/java/kong/com/troopsto/service/TaskService.java:47-53 | Why an id was rejected: it is unknown ("Soldier not found"), or some task of the soldier overlaps (the conflict message), or some comparison raised the error message. |
| TaskService.AssignSoldiers | src/main/java/kong/com/troopsto/service/TaskService.java:43-62 | The full contract of `assignSoldiers`:<br>- An unknown task id is "Task not found", with nothing changed.<br>- Both sides gain exactly the applied pairs, and nothing is removed.<br>- Each added soldier had no overlapping task before the call.<br>- On success, every requested soldier was applied and the task is returned.<br>- A failure names an unapplied requested id and its reason. Pairs applied before the failure stay.<br>- A soldier already holding the task makes success impossible when start < end.<br>- Present, distinct, free soldiers always succeed.<br>- The two sides stay mirrored. |
| TaskService.AssignAll | src/main/java/kong/com/troopsto/service/TaskService.java:47-59 | The loop over the requested ids:<br>- The applied ids are a subset of the request, and all of it when no failure occurs.<br>- `assigned` grows by exactly the applied soldiers; it becomes non-null once something is applied.<br>- Exactly the applied soldiers gain the task.<br>- A failure is "Soldier not found" or a conflict of a requested, unapplied id. |
| TaskService.AssignOne | src/main/java/kong/com/troopsto/service/TaskService.java:48-57 | One soldier:<br>- A conflict or parse error leaves both sides unchanged. The conflict message is "Soldier <firstName> has a conflicting task".<br>- Otherwise the soldier is added to `task.assigned` and the task to `soldier.tasks`. |
| TaskService.SelfConflict | src/main/java/kong/com/troopsto/service/TaskService.java:64-71 | A task compared with its own window overlaps iff that window is non-empty (both dates parse and start < end). |
| SoldierController.Info | src/main/java/kong/com/troopsto/controller/SoldierController.java:108-116 | The seven-key record of a soldier: id, first and last name, rank, squad, team and role. |
| SoldierController.Counted | src/main/java/kong/com/troopsto/controller/SoldierController.java:95-98 | A task takes part in the test unless `excludeTaskId` is given and equals its id. |
| SoldierController.Free | src/main/java/kong/com/troopsto/controller/SoldierController.java:90-107 | A soldier is listed: every counted task compares without error and none overlaps. |
| SoldierController.Comparable | src/main/java/kong/com/troopsto/controller/SoldierController.java:94-104 | Every counted task of the soldier compares without a parse error. |
| SoldierController.Available | src/main/java/kong/com/troopsto/controller/SoldierController.java:87-118 | The reply when nothing fails: the records of the free soldiers, in roster order (see AvailableMembers and AvailableAppend). |
| SoldierController.GetAvailableSoldiers | src/main/java/kong/com/troopsto/controller/SoldierController.java:81-125 | Succeeds iff every counted comparison parses. The reply then equals `Available`: the free soldiers' seven-key records, in roster order. A failure carries the message of a comparison that raised it. |
| SoldierController.AvailableAppend | src/main/java/kong/com/troopsto/controller/SoldierController.java:90-118 | The filter keeps roster order: it distributes over concatenation of the roster. |
| SoldierController.AvailableMembers | src/main/java/kong/com/troopsto/controller/SoldierController.java:90-118 | A record is listed iff it is the record of a roster soldier none of whose counted tasks overlaps. |
| SoldierController.AvailableLength | src/main/java/kong/com/troopsto/controller/SoldierController.java:87-118 | The reply is never longer than the roster. |
| SoldierController.FreeWithoutExclusion | src/main/java/kong/com/troopsto/controller/SoldierController.java:90-107 | With no `excludeTaskId`, a soldier is listed iff `hasConflict` would answer false. |
| SoldierController.NothingCountedIsFree | src/main/java/kong/com/troopsto/controller/SoldierController.java:94-104 | A soldier with no counted task is listed, and none of the window's strings is parsed for them. |
| SoldierController.FormatDateTime | src/main/java/kong/com/troopsto/controller/SoldierController.java:149-156 | A date that parses is formatted with the abstract pattern formatter. Any other string is echoed unchanged. |
| SoldierController.Entry | src/main/java/kong/com/troopsto/controller/SoldierController.java:64-65 | One conflict entry: "name (start - end)" with both dates formatted. |
| SoldierController.CheckConflict | src/main/java/kong/com/troopsto/controller/SoldierController.java:49-79 | An unknown id is "Soldier not found". The flag is `hasConflict`'s answer. Without a conflict the list is empty. With one, the list has one "name (start - end)" entry per overlapping task, each task once. Errors come from a comparison. If every comparison parses, the call succeeds. |
| Entities.Task.constructor | src/main/java/kong/com/troopsto/model/Task.java:12-37 | A new task holds the given columns and an empty `assigned` set. |
| Entities.Task.GetId | src/main/java/kong/com/troopsto/model/Task.java:39-41 | Returns the stored id; `SetId` is proved to be read back through it. |
| Entities.Task.GetName | src/main/java/kong/com/troopsto/model/Task.java:47-49 | Returns the stored name; `SetName` is proved to be read back through it. |
| Entities.Task.GetDescription | src/main/java/kong/com/troopsto/model/Task.java:55-57 | Returns the stored description; its setter is read back through it. |
| Entities.Task.GetReason | src/main/java/kong/com/troopsto/model/Task.java:63-65 | Returns the stored reason; its setter is read back through it. |
| Entities.Task.GetLocation | src/main/java/kong/com/troopsto/model/Task.java:71-73 | Returns the stored location; its setter is read back through it. |
| Entities.Task.GetCreated | src/main/java/kong/com/troopsto/model/Task.java:79-81 | Returns the stored creation stamp; its setter is read back through it. |
| Entities.Task.GetStart | src/main/java/kong/com/troopsto/model/Task.java:87-89 | Returns the stored start; its setter is read back through it. |
| Entities.Task.GetEnd | src/main/java/kong/com/troopsto/model/Task.java:95-97 | Returns the stored end; its setter is read back through it. |
| Entities.Task.AssignedSet | src/main/java/kong/com/troopsto/model/Task.java:103-108 | The set `getAssigned` hands out: the stored set, or the empty set while the field is null. |
| Entities.Task.SetId | src/main/java/kong/com/troopsto/model/Task.java:43-45 | Only `id` changes, and `getId` returns the value set. |
| Entities.Task.SetName | src/main/java/kong/com/troopsto/model/Task.java:51-53 | Only `name` changes, and `getName` returns the value set. |
| Entities.Task.SetDescription | src/main/java/kong/com/troopsto/model/Task.java:59-61 | Only `description` changes, and its getter returns the value set. |
| Entities.Task.SetReason | src/main/java/kong/com/troopsto/model/Task.java:67-69 | Only `reason` changes, and its getter returns the value set. |
| Entities.Task.SetLocation | src/main/java/kong/com/troopsto/model/Task.java:75-77 | Only `location` changes, and its getter returns the value set. |
| Entities.Task.SetCreated | src/main/java/kong/com/troopsto/model/Task.java:83-85 | Only `created` changes, and its getter returns the value set. |
| Entities.Task.SetStart | src/main/java/kong/com/troopsto/model/Task.java:91-93 | Only `start` changes, and its getter returns the value set. |
| Entities.Task.SetEnd | src/main/java/kong/com/troopsto/model/Task.java:99-101 | Only `end` changes, and its getter returns the value set. |
| Entities.Task.GetAssigned | src/main/java/kong/com/troopsto/model/Task.java:103-108 | Never null: a null field is replaced by an empty set, which is stored and returned. A non-null field is returned unchanged. Repeated calls therefore return the same stored set. |
| Entities.Task.SetAssigned | src/main/java/kong/com/troopsto/model/Task.java:110-112 | Stores its argument as it is, null included. |
| Entities.Soldier.constructor | src/main/java/kong/com/troopsto/model/Soldier.java:13-28 | A new soldier holds the given columns and an empty `tasks` set. |
| Entities.Soldier.GetId | src/main/java/kong/com/troopsto/model/Soldier.java:31-33 | Returns the stored id; `SetId` is proved to be read back through it. |
| Entities.Soldier.GetFirstName | src/main/java/kong/com/troopsto/model/Soldier.java:39-41 | Returns the stored first name; its setter is read back through it. |
| Entities.Soldier.GetLastName | src/main/java/kong/com/troopsto/model/Soldier.java:47-49 | Returns the stored last name; its setter is read back through it. |
| Entities.Soldier.GetRank | src/main/java/kong/com/troopsto/model/Soldier.java:55-57 | Returns the stored rank; its setter is read back through it. |
| Entities.Soldier.GetSquad | src/main/java/kong/com/troopsto/model/Soldier.java:63-65 | Returns the stored squad; its setter is read back through it. |
| Entities.Soldier.GetTeam | src/main/java/kong/com/troopsto/model/Soldier.java:71-73 | Returns the stored team; its setter is read back through it. |
| Entities.Soldier.GetRole | src/main/java/kong/com/troopsto/model/Soldier.java:79-81 | Returns the stored role; its setter is read back through it. |
| Entities.Soldier.GetTasks | src/main/java/kong/com/troopsto/model/Soldier.java:87-89 | Returns the stored task set as it is. |
| Entities.Soldier.SetId | src/main/java/kong/com/troopsto/model/Soldier.java:35-37 | Only `id` changes, and its getter returns the value set. |
| Entities.Soldier.SetFirstName | src/main/java/kong/com/troopsto/model/Soldier.java:43-45 | Only `firstName` changes, and its getter returns the value set. |
| Entities.Soldier.SetLastName | src/main/java/kong/com/troopsto/model/Soldier.java:51-53 | Only `lastName` changes, and its getter returns the value set. |
| Entities.Soldier.SetRank | src/main/java/kong/com/troopsto/model/Soldier.java:59-61 | Only `rank` changes, and its getter returns the value set. |
| Entities.Soldier.SetSquad | src/main/java/kong/com/troopsto/model/Soldier.java:67-69 | Only `squad` changes, and its getter returns the value set. |
| Entities.Soldier.SetTeam | src/main/java/kong/com/troopsto/model/Soldier.java:75-77 | Only `team` changes, and its getter returns the value set. |
| Entities.Soldier.SetRole | src/main/java/kong/com/troopsto/model/Soldier.java:83-85 | Only `role` changes, and its getter returns the value set. |
| Entities.Soldier.SetTasks | src/main/java/kong/com/troopsto/model/Soldier.java:91-93 | Only `tasks` changes, and `getTasks` returns the stored set as it is, with no null replacement. |
| Entities.Mirrored | src/main/java/kong/com/troopsto/model/Soldier.java:26 | The inverse mapping `mappedBy = "assigned"`: a task is in a soldier's `tasks` iff the soldier is in the task's `assigned`. `TaskService.AssignSoldiers` keeps it. |
| Calendar.IsLeapYear | frontend/src/page/CalendarPage.tsx:41-42 | The Gregorian leap-year rule: divisible by 4, and not by 100 unless by 400. |
| Calendar.MonthLength | frontend/src/page/CalendarPage.tsx:42 | The Gregorian month lengths, months counted from 0 as `getMonth` does. `DaysInMonthIsGregorian` ties `new Date(y, m + 1, 0)` to it. |
| Calendar.DaysBeforeMonth | frontend/src/page/CalendarPage.tsx:41-42 | Days of the year before the first of month m: the sum of the earlier months' lengths. |
| Calendar.DayFromYear | frontend/src/page/CalendarPage.tsx:41-42 | ECMA-262 DayFromYear: the day number of January 1st, counted from 1970. `YearLength` proves consecutive values 365 or 366 apart by the leap rule. |
| Calendar.MakeDay | frontend/src/page/CalendarPage.tsx:41-42 | ECMA-262 MakeDay, what `new Date(y, m, d)` computes: the month carries into the year and the date counts on from the first, 0 included. |
| Calendar.WeekDay | frontend/src/page/CalendarPage.tsx:44 | ECMA-262 WeekDay, what `getDay` returns: 0 is Sunday, and day 0 (1970-01-01) is a Thursday. |
| Calendar.GetDaysInMonth | frontend/src/page/CalendarPage.tsx:38-47 | `daysInMonth` is the Gregorian length of the month, and `startingDayOfWeek` is the weekday of its first day, in 0..6. |
| Calendar.YearLength | frontend/src/page/CalendarPage.tsx:41-43 | By ECMA-262 DayFromYear, a year has 366 days iff it is a Gregorian leap year, and 365 otherwise. |
| Calendar.MonthStep | frontend/src/page/CalendarPage.tsx:41-42 | The first of month m+1 is MonthLength(y, m) days after the first of month m, across the December/January carry too. |
| Calendar.LastDayInMonth | frontend/src/page/CalendarPage.tsx:42 | `new Date(y, m + 1, 0)` is the last day of month m, between the month's first day and the next month's first. |
| Calendar.DaysInMonthIsGregorian | frontend/src/page/CalendarPage.tsx:38-47 | `daysInMonth` is the Gregorian length: 29 for a leap February, 28 for another February, 30 or 31 for the other months. |
| Calendar.StartingDayOfWeek | frontend/src/page/CalendarPage.tsx:41-44 | `startingDayOfWeek` is in 0..6. The next month starts `daysInMonth` weekdays later. |
| Calendar.WeekdaysRepeat | frontend/src/page/CalendarPage.tsx:41-44 | 400 years later every date falls 146097 days later, on the same weekday. |
| Calendar.YearMonth.Valid | frontend/src/page/CalendarPage.tsx:38-40 | A displayed month is 0..11, as `getMonth` returns. |
| Calendar.YearMonth.Index | frontend/src/page/CalendarPage.tsx:64-70 | The month count 12*year+month, which navigation moves by one. |
| Calendar.MonthBefore | frontend/src/page/CalendarPage.tsx:64-66 | `new Date(year, month - 1)`: a valid month whose count is one less. |
| Calendar.MonthAfter | frontend/src/page/CalendarPage.tsx:68-70 | `new Date(year, month + 1)`: a valid month whose count is one more. |
| Calendar.Normalize | frontend/src/page/CalendarPage.tsx:65 | `new Date(year, month)` yields a valid (year, month) with the same month count 12*year+month, so an out-of-range month carries into the year. |
| Calendar.PreviousMonthWraps | frontend/src/page/CalendarPage.tsx:64-66 | January goes back to December of the year before. Any other month goes back one, in the same year. |
| Calendar.NextMonthWraps | frontend/src/page/CalendarPage.tsx:68-70 | December goes on to January of the year after. Any other month goes on one, in the same year. |
| Calendar.IndexDetermines | frontend/src/page/CalendarPage.tsx:64-70 | Two valid (year, month) pairs with the same month count are equal. |
| Calendar.NavigationRoundTrip | frontend/src/page/CalendarPage.tsx:64-70 | Each step moves the month count by one. Previous then next, and next then previous, both return to the start. |
| Calendar.JsDate | frontend/src/page/CalendarPage.tsx:56-57 | `new Date(task.start)`: a missing property gives an Invalid Date, a present one goes through the abstract date parser. |
| Calendar.DayStart | frontend/src/page/CalendarPage.tsx:52 | `new Date(year, month, day, 0, 0, 0)`: the first millisecond of the day. |
| Calendar.DayEnd | frontend/src/page/CalendarPage.tsx:53 | `new Date(year, month, day, 23, 59, 59)`: 23:59:59 of the same day. |
| Calendar.OnDay | frontend/src/page/CalendarPage.tsx:55-61 | The filter test `taskStart <= dayEnd && taskEnd >= dayStart`, inclusive at both ends. An Invalid Date fails every comparison. |
| Calendar.FilterOnDay | frontend/src/page/CalendarPage.tsx:55-61 | `tasks.filter(...)`: no longer than the list, and every kept task is in the list and meets the window. |
| Calendar.GetTasksForDay | frontend/src/page/CalendarPage.tsx:49-62 | The bucket of a day: no longer than the list, and every task in it is in the list and meets that day's window. |
| Calendar.FilterMembers | frontend/src/page/CalendarPage.tsx:55-61 | A task is in the bucket iff it is in the list and meets the day's window inclusively. An invalid date never does. |
| Calendar.FilterAppend | frontend/src/page/CalendarPage.tsx:55-61 | The bucket keeps the list's order: it distributes over concatenation. |
| Calendar.InclusiveAtMidnight | frontend/src/page/CalendarPage.tsx:52-60 | A task ending exactly at 00:00:00 of a day is in that day's bucket, although the backend's strict overlap would not count it. |
| Calendar.SpansEveryDayBetween | frontend/src/page/CalendarPage.tsx:55-61 | A task in the buckets of two days is in the bucket of every day between them. |
| Calendar.IsToday | frontend/src/page/CalendarPage.tsx:88-93 | A date of the displayed month is today iff its day, month and year all equal today's. |
| Calendar.Cell | frontend/src/page/CalendarPage.tsx:170-197 | A cell keeps its date and today mark. It shows a prefix of the bucket of at most three tasks, and shown plus more is the bucket's size. |
| Calendar.DayCellOf | frontend/src/page/CalendarPage.tsx:146-150 | The cell of one date holds that date. |
| Calendar.Grid | frontend/src/page/CalendarPage.tsx:141-199 | 0..6 leading blanks and one cell per Gregorian day of the month, cell i holding date i+1. |
| Calendar.CellTruncation | frontend/src/page/CalendarPage.tsx:170-197 | A cell shows the first min(n, 3) tasks. A "+(n-3) more" line appears exactly when n > 3. Shown plus more is n. |
| Calendar.GridShape | frontend/src/page/CalendarPage.tsx:141-199 | The grid has 0..6 leading blanks and one cell per Gregorian day of the month. Cell i is day i+1 with that day's bucket. |
| Calendar.TodayMarked | frontend/src/page/CalendarPage.tsx:88-93 | For any displayed month and any today: only today's date can be marked, and only while today's month is displayed. When today's date has a cell in the displayed month, that cell is marked iff the month is today's. |
| Calendar.CalendarPage.Valid | frontend/src/page/CalendarPage.tsx:16 | The page's invariant: `currentDate` names a month 0..11. |
| Calendar.CalendarPage.constructor | frontend/src/page/CalendarPage.tsx:16-20 | The page opens on today's month, with no tasks and `loading` set. |
| Calendar.CalendarPage.FetchTasks | frontend/src/page/CalendarPage.tsx:26-36 | A parsed reply replaces the tasks; a failed one keeps them. `loading` ends either way. |
| Calendar.CalendarPage.PreviousMonth | frontend/src/page/CalendarPage.tsx:64-66 | The displayed month becomes the previous one (month count minus one) and stays valid. |
| Calendar.CalendarPage.NextMonth | frontend/src/page/CalendarPage.tsx:68-70 | The displayed month becomes the next one (month count plus one) and stays valid. |
| Calendar.CalendarPage.GoToToday | frontend/src/page/CalendarPage.tsx:72-74 | The displayed month is today's, so today's date is marked. |
| SoldierSelector.NoDuplicates | frontend/src/components/soldier/SoldierSelector.tsx:35 | A JavaScript `Set` holds no id twice. |
| SoldierSelector.Without | frontend/src/components/soldier/SoldierSelector.tsx:68 | `Set.delete`: exactly the other ids remain, and still without repeats. |
| SoldierSelector.Toggle | frontend/src/components/soldier/SoldierSelector.tsx:65-73 | Flips the id's membership, leaves every other id as it was, and keeps the selection free of repeats. |
| SoldierSelector.AssignDisabled | frontend/src/components/soldier/SoldierSelector.tsx:197 | The Assign button is disabled iff nothing is selected or the list is loading. |
| SoldierSelector.ToggleMembership | frontend/src/components/soldier/SoldierSelector.tsx:65-73 | Toggling flips the id's membership and leaves every other id as it was. |
| SoldierSelector.ToggleKeepsSet | frontend/src/components/soldier/SoldierSelector.tsx:65-73 | The selection stays free of repeats. Its size drops by one for a present id and grows by one for an absent id. |
| SoldierSelector.ToggleTwice | frontend/src/components/soldier/SoldierSelector.tsx:65-73 | Toggling twice restores the selection as a set. When the id was absent, it restores the exact sequence too. |
| SoldierSelector.AvailabilityQuery | frontend/src/components/soldier/SoldierSelector.tsx:48 | The query gives `taskStart` and `taskEnd` their values and has no `excludeTaskId`. |
| SoldierSelector.Param | frontend/src/components/soldier/SoldierSelector.tsx:48 | A query parameter is found iff some pair has that key, and what is found is the value of such a pair. |
| SoldierSelector.QueryHasNoExclusion | frontend/src/components/soldier/SoldierSelector.tsx:48 | The availability query carries `taskStart` and `taskEnd` and never `excludeTaskId`. |
| SoldierSelector.Picker.Valid | frontend/src/components/soldier/SoldierSelector.tsx:35 | The picker's invariant: the selection has no repeats, as a `Set` has none. |
| SoldierSelector.Picker.constructor | frontend/src/components/soldier/SoldierSelector.tsx:34-37 | The picker starts closed, not loading, with nothing listed or selected. |
| SoldierSelector.Picker.SetOpen | frontend/src/components/soldier/SoldierSelector.tsx:111 | The dialog's own open/close sets `open`. |
| SoldierSelector.Picker.StartFetch | frontend/src/components/soldier/SoldierSelector.tsx:45-48 | Loading is set and the availability query for the task's window goes out. |
| SoldierSelector.Picker.FetchAvailableSoldiers | frontend/src/components/soldier/SoldierSelector.tsx:49-63 | A parsed reply replaces the listed soldiers; a failed one keeps them. Loading ends either way. |
| SoldierSelector.Picker.ToggleSoldier | frontend/src/components/soldier/SoldierSelector.tsx:65-73 | The selection becomes `Toggle` of the old one and stays free of repeats. Only the toggled id changes membership. Assign is then disabled iff loading, or the toggle removed the only selected id. |
| SoldierSelector.Picker.HandleClose | frontend/src/components/soldier/SoldierSelector.tsx:105-108 | The dialog closes and the selection empties, which disables Assign. |
| SoldierSelector.Picker.HandleAssign | frontend/src/components/soldier/SoldierSelector.tsx:75-103 | Exactly the selected ids are posted. An ok reply closes the dialog, clears the selection (which disables Assign) and runs the callback if one is given. Any other reply changes nothing and runs no callback. |
| TaskAdd.Field | frontend/src/components/task/TaskAdd.tsx:57-64 | The text field of the record that an input's `name` selects. |
| TaskAdd.WithField | frontend/src/components/task/TaskAdd.tsx:57-64 | `{...prev, [name]: value}`: the record with one field replaced (see ChangeOnlyNamedField). |
| TaskAdd.ChangeOnlyNamedField | frontend/src/components/task/TaskAdd.tsx:57-64 | A change reads back as the typed value. Every other field, the id and the dates stay. |
| TaskAdd.JsNumber | frontend/src/components/task/TaskAdd.tsx:84 | `Number(piece)`: a number iff every character is a digit. The value is never negative, and "" reads as 0. |
| TaskAdd.ParseTime | frontend/src/components/task/TaskAdd.tsx:84 | `split(":").map(Number)` into hours and minutes: a time without ":" gives no minutes, and what it reads is never negative. |
| TaskAdd.FormatTime | frontend/src/components/task/TaskAdd.tsx:45 | A time as the time input holds it, "HH:MM" with two digits each. `TimeRoundTrip` proves `ParseTime` inverts it. |
| TaskAdd.TimeRoundTrip | frontend/src/components/task/TaskAdd.tsx:84 | Every "HH:MM" time of a day, split on ":" and read with `Number`, gives back its hours and minutes. |
| TaskAdd.MinutesRequired | frontend/src/components/task/TaskAdd.tsx:84 | "12" has no minute part and gives an invalid date. "12:" reads as 12:00. |
| TaskAdd.SetHours | frontend/src/components/task/TaskAdd.tsx:85 | For a valid hour and minute, the day is kept and the time of day becomes h:m:00 with the old milliseconds. |
| TaskAdd.SetHoursSameDay | frontend/src/components/task/TaskAdd.tsx:85 | `setHours(h, m, 0)` keeps the picked day and sets the time of day to h:m:00, keeping the milliseconds. |
| TaskAdd.Truthy | frontend/src/components/task/TaskAdd.tsx:43 | A date string is truthy when present and non-empty. |
| TaskAdd.MissingInformation | frontend/src/components/task/TaskAdd.tsx:73-76 | The alert condition: the name, description or location is empty; the reason is optional. |
| TaskAdd.Renderable | frontend/src/components/task/TaskAdd.tsx:42-53 | Each truthy date of an existing task parses, so `toISOString` does not throw while the form opens. |
| TaskAdd.TaskForm.constructor | frontend/src/components/task/TaskAdd.tsx:37-53 | An existing task, or the empty record, fills the form. An existing task's dates are picked and its times prefilled. Otherwise no date is picked and the times are "12:00" and "13:00". |
| TaskAdd.TaskForm.HandleChange | frontend/src/components/task/TaskAdd.tsx:57-64 | Only the named field changes, to the typed value. |
| TaskAdd.TaskForm.SetOpen | frontend/src/components/task/TaskAdd.tsx:113 | The dialog's own `onOpenChange` opens or closes the form. |
| TaskAdd.TaskForm.HandleReset | frontend/src/components/task/TaskAdd.tsx:66-68 | The record returns to `initialTaskSet`. |
| TaskAdd.TaskForm.PickStart | frontend/src/components/task/TaskAdd.tsx:136-138 | The start picker sets the start date and time. |
| TaskAdd.TaskForm.PickEnd | frontend/src/components/task/TaskAdd.tsx:148-150 | The end picker sets the end date and time. |
| TaskAdd.TaskForm.HandleSubmit | frontend/src/components/task/TaskAdd.tsx:70-109 | Checks, in order:<br>- No user: nothing happens.<br>- Empty name, description or location: rejected. The reason is optional.<br>- Missing date: rejected.<br>Otherwise the record goes out iff both times read as numbers. It keeps the id, and its start and end are the picked days at the typed times. The end is never compared with the start. A submit resets and closes the form; anything else leaves the form as it was. |
| SoldierAdd.Field | frontend/src/components/soldier/SoldierAdd.tsx:36-43 | The text field of the record that an input's `name` selects. |
| SoldierAdd.WithField | frontend/src/components/soldier/SoldierAdd.tsx:36-43 | `{...prev, [name]: value}`: the record with one field replaced (see ChangeOnlyNamedField). |
| SoldierAdd.ChangeOnlyNamedField | frontend/src/components/soldier/SoldierAdd.tsx:36-43 | A change reads back as the typed value. The id and every other field stay. |
| SoldierAdd.InitialIsEmpty | frontend/src/components/soldier/SoldierAdd.tsx:17-24 | The reset record has all six fields empty. |
| SoldierAdd.Complete | frontend/src/components/soldier/SoldierAdd.tsx:51 | The submit condition: first name, last name, rank and squad are all non-empty. |
| SoldierAdd.OnlyRequiredFieldsMatter | frontend/src/components/soldier/SoldierAdd.tsx:51 | Team and role never decide whether a record is complete. |
| SoldierAdd.SoldierForm.constructor | frontend/src/components/soldier/SoldierAdd.tsx:33-34 | Editing starts from `currentSoldier`, and adding from the empty record. The dialog starts closed. |
| SoldierAdd.SoldierForm.HandleChange | frontend/src/components/soldier/SoldierAdd.tsx:36-43 | Only the named field changes, to the typed value. |
| SoldierAdd.SoldierForm.SetOpen | frontend/src/components/soldier/SoldierAdd.tsx:64 | The dialog's own `onOpenChange` opens or closes the form. |
| SoldierAdd.SoldierForm.HandleReset | frontend/src/components/soldier/SoldierAdd.tsx:45-47 | All six fields become empty. |
| SoldierAdd.SoldierForm.HandleSubmit | frontend/src/components/soldier/SoldierAdd.tsx:49-60 | The record goes out iff first name, last name, rank and squad are non-empty. A record that goes out is the current data, and the form then resets and closes. Otherwise nothing changes. |
| SignupPage.IsJsWhitespace | frontend/src/page/SignupPage.tsx:25 | The characters `String.prototype.trim` removes: ECMA-262 WhiteSpace and LineTerminator. |
| SignupPage.Blank | frontend/src/page/SignupPage.tsx:25 | `!username.trim()`: the name is empty once its whitespace is removed. |
| SignupPage.Feedback | frontend/src/page/SignupPage.tsx:24-49 | The feedback is empty iff the name is blank. Otherwise it is "Username is available" iff the lookup said available, "Username is taken" iff it said taken, and the error line otherwise. |
| SignupPage.ValidityAsWritten | frontend/src/page/SignupPage.tsx:24-49 | Validity as the page sets it: true iff the feedback is non-empty, that is for every non-blank name. |
| SignupPage.IntendedValidity | frontend/src/page/SignupPage.tsx:36-45 | The corrected rule: valid iff the feedback says the name is available. Such a name is also valid as written. |
| SignupPage.TakenNameIsAccepted | frontend/src/page/SignupPage.tsx:29-49 | Every non-blank name that the lookup reports as taken, or whose check failed, gets the matching feedback but still ends valid as written. It is invalid under the intended rule. |
| SignupPage.AliceIsAccepted | frontend/src/page/SignupPage.tsx:29-49 | The concrete input: "alice" reported taken is valid as written and invalid under the corrected rule. |
| SignupPage.IntendedValidityMatchesFeedback | frontend/src/page/SignupPage.tsx:36-45 | Under the corrected rule, the form is valid iff the feedback says "Username is available". Such a name is also valid as written. |
| SignupPage.RequestedRole | frontend/src/page/SignupPage.tsx:57-79 | The role a sign-up carries for a code: "ADMIN" for "hooligans", none otherwise. |
| SignupPage.RoleOnlyForAdminCode | frontend/src/page/SignupPage.tsx:57-79 | A role is sent iff the code is "hooligans", and that role is "ADMIN". |
| SignupPage.SignupForm.constructor | frontend/src/page/SignupPage.tsx:17-21 | The form starts empty and invalid. |
| SignupPage.SignupForm.ValidateForm | frontend/src/page/SignupPage.tsx:24-50 | A blank name gives empty feedback and is invalid. Otherwise the feedback follows the lookup, but validity is set as written: true for every non-blank name. |
| SignupPage.SignupForm.HandleSubmit | frontend/src/page/SignupPage.tsx:52-113 | An invalid form sends nothing. The sign-up carries the typed name and password, plus the role only for the admin code. A refused sign-up changes no field and sends no login. An accepted one clears the name and password, sets "Sign up successful!" and logs in with the typed values. Only an ok login signs the user in. |
| AuthProvider.HasSession | frontend/src/provider/AuthProvider.tsx:17-19 | `!!localStorage.getItem("sessionId")`: a non-empty session id is stored. |
| AuthProvider.SignedIn | frontend/src/provider/AuthProvider.tsx:36-38 | The storage after `login`: both keys written, nothing else touched (see SignedInIsRestored). |
| AuthProvider.SignedOut | frontend/src/provider/AuthProvider.tsx:44-46 | The storage after `logout`: both keys removed, nothing else touched (see SignedOutIsFinal). |
| AuthProvider.SignedInIsRestored | frontend/src/provider/AuthProvider.tsx:36-42 | After `login`, a reload finds a session iff the session id is non-empty. The user id is stored, and other keys are untouched. |
| AuthProvider.SignedOutIsFinal | frontend/src/provider/AuthProvider.tsx:44-49 | After `logout`, no session or user id is stored. Logging out again changes nothing, and other keys are untouched. |
| AuthProvider.Auth.Consistent | frontend/src/provider/AuthProvider.tsx:17-22 | The state says what storage says: logged in iff a session id is stored, and the user id is the stored one or null. |
| AuthProvider.Auth.constructor | frontend/src/provider/AuthProvider.tsx:17-22 | Logged in iff a non-empty session id is stored; the user id is the stored one or null. Empty storage, as in the Navbar test, starts logged out. |
| AuthProvider.Auth.MountEffect | frontend/src/provider/AuthProvider.tsx:24-33 | Signs in only when both keys are stored non-empty. It never signs out, and it keeps the state consistent with storage. |
| AuthProvider.Auth.Login | frontend/src/provider/AuthProvider.tsx:36-42 | Both keys are written, the user is logged in with the new id, and the state matches storage iff the session id is non-empty. |
| AuthProvider.Auth.Logout | frontend/src/provider/AuthProvider.tsx:44-49 | Both keys are removed, the user is logged out with a null id, and the state matches storage. |
| ListUpdates.RemoveKey | frontend/src/page/PlatoonPage.tsx:151 | The filtered list is no longer, and holds no element with the deleted id. |
| ListUpdates.RemoveKeyMembers | frontend/src/page/TaskPage.tsx:105 | An element survives iff it was in the list and its id differs. |
| ListUpdates.RemoveKeyAppend | frontend/src/page/PlatoonPage.tsx:151 | The filter keeps order: it distributes over concatenation. |
| ListUpdates.RemoveKeyIdempotent | frontend/src/page/TaskPage.tsx:105 | Deleting the same id twice is deleting it once. |
| ListUpdates.ReplaceKey | frontend/src/page/PlatoonPage.tsx:106 | The mapped list keeps its length. |
| ListUpdates.ReplaceKeyAt | frontend/src/page/PlatoonPage.tsx:106 | Each element with the edited id becomes the edited soldier. Every other element stays in place. |
| PlatoonPage.SoldierId | frontend/src/page/PlatoonPage.tsx:151 | The key the roster is filtered and mapped by: a soldier's id. |
| PlatoonPage.Platoon.constructor | frontend/src/page/PlatoonPage.tsx:13-14 | The roster starts empty and loading. |
| PlatoonPage.Platoon.FetchSoldiers | frontend/src/page/PlatoonPage.tsx:17-31 | A parsed reply replaces the roster; a failed one keeps it. Loading ends either way. |
| PlatoonPage.Platoon.HandleAddSoldier | frontend/src/page/PlatoonPage.tsx:33-71 | With no user, a non-ok reply or a failed request, nothing changes. A created soldier is appended, the others keeping their places. An empty body replaces the roster by the refetched list. |
| PlatoonPage.Platoon.HandleEdit | frontend/src/page/PlatoonPage.tsx:73-113 | With a user, the edited soldier is posted. With an ok, non-empty reply, every soldier with its id is replaced in place and the length is kept. Otherwise nothing changes. |
| PlatoonPage.Platoon.Delete | frontend/src/page/PlatoonPage.tsx:151 | Exactly the soldiers with another id remain, in order. |
| TaskPage.TaskId | frontend/src/page/TaskPage.tsx:105 | The key the task list is filtered by: a task's id. |
| TaskPage.TaskList.constructor | frontend/src/page/TaskPage.tsx:12-13 | The list starts empty and loading. |
| TaskPage.TaskList.FetchTasks | frontend/src/page/TaskPage.tsx:15-29 | A parsed reply replaces the tasks; a failed one keeps them. Loading ends either way. |
| TaskPage.TaskList.HandleAddTask | frontend/src/page/TaskPage.tsx:31-69 | With no user, a non-ok reply or a failed request, nothing changes. A created task is appended. An empty body replaces the list by the refetched tasks. |
| TaskPage.TaskList.Delete | frontend/src/page/TaskPage.tsx:105 | Exactly the tasks with another id remain, in order. |
| Api.BaseUrl | frontend/src/config/api.tsx:4 | `VITE_API_URL || ''`: the variable when set and non-empty, otherwise the empty string. |
| Api.Path | frontend/src/config/api.tsx:9 | The endpoint as a path: it starts with "/", followed by the endpoint without its own leading "/". |
| Api.ApiUrl | frontend/src/config/api.tsx:7-11 | The base, unchanged, followed by the endpoint's path. |
| Api.ApiUrlShape | frontend/src/config/api.tsx:7-11 | The URL is the base followed by "/". An endpoint that starts with "/" is appended as it is; any other endpoint follows the added "/". |
| Api.PathIdempotent | frontend/src/config/api.tsx:9 | Normalising twice is normalising once. |
| Api.EmptyEndpoint | frontend/src/config/api.tsx:9-10 | The empty endpoint gives base + "/". |
| Api.RelativeWithoutBase | frontend/src/config/api.tsx:4 | With `VITE_API_URL` unset or empty, the URL is the relative path. |
| ProfileService.Profile.constructor | src/main/java/kong/com/troopsto/service/ProfileService.java:26 | A submitted profile has no id yet and holds the given name, password and role. |
| ProfileService.Profiles.constructor | src/main/java/kong/com/troopsto/service/ProfileService.java:13-21 | The repository starts empty. |
| ProfileService.Profiles.Valid | src/main/java/kong/com/troopsto/service/ProfileService.java:31 | The repository is keyed by id: each stored profile carries the id it is stored under. |
| ProfileService.Profiles.Named | src/main/java/kong/com/troopsto/service/ProfileService.java:38-40 | Some stored profile has this user name. |
| ProfileService.Profiles.RegisterUser | src/main/java/kong/com/troopsto/service/ProfileService.java:26-32 | A null role becomes USER and a given one is kept. The password becomes its encoding, and the name is kept. A profile without an id is stored under a fresh one. A profile that carries the id of a stored one replaces it. The repository stays keyed by id. |
| ProfileService.Profiles.FindProfileByName | src/main/java/kong/com/troopsto/service/ProfileService.java:34-36 | A stored profile with that name, or null iff there is none. |
| ProfileService.Profiles.ExistsByUsername | src/main/java/kong/com/troopsto/service/ProfileService.java:38-40 | True iff some stored profile has that name. |
| ProfileService.Profiles.FindById | src/main/java/kong/com/troopsto/service/ProfileService.java:42-44 | The profile stored under the id, or null. |
| ProfileController.Accounts.constructor | src/main/java/kong/com/troopsto/controller/ProfileController.java:24-29 | The session table starts empty. |
| ProfileController.Accounts.SaveNewUser | src/main/java/kong/com/troopsto/controller/ProfileController.java:31-42 | Registers the profile as `registerUser` does: the name is kept, the password encoded, a null role becomes USER, and a body with a stored id replaces that profile. Answers "User created successfully" with the profile's id and name. |
| ProfileController.Accounts.GetProfile | src/main/java/kong/com/troopsto/controller/ProfileController.java:44-57 | The stored profile, or 404. |
| ProfileController.Accounts.FindUser | src/main/java/kong/com/troopsto/controller/ProfileController.java:59-63 | `exists` is true iff the name is taken. |
| ProfileController.Accounts.Login | src/main/java/kong/com/troopsto/controller/ProfileController.java:65-77 | An unknown name or a non-matching password gives 401 with the table unchanged. Otherwise exactly one entry is added, from the fresh id to the profile. The reply carries that id, the name and the user id. The table only grows. |
| ProfileController.Accounts.Me | src/main/java/kong/com/troopsto/controller/ProfileController.java:79-84 | The profile of a known session, and 401 otherwise. |
| ProfileController.Grown | src/main/java/kong/com/troopsto/controller/ProfileController.java:24 | Every session of the earlier table is in the later one, bound to the same profile. |
| ProfileController.SessionsPersist | src/main/java/kong/com/troopsto/controller/ProfileController.java:24 | Growth of the table is transitive: a session known before two growing steps is still there, bound to the same profile. |
| DatabaseConfig.JavaString | src/main/java/kong/com/troopsto/config/DatabaseConfig.java:26 | Java string concatenation of a possibly null string: a null reads as "null". |
| DatabaseConfig.JdbcUrl | src/main/java/kong/com/troopsto/config/DatabaseConfig.java:26-30 | The JDBC URL starts with "jdbc:postgresql://" (see QueryAppendedIffPresent). |
| DatabaseConfig.DataSourceWith | src/main/java/kong/com/troopsto/config/DatabaseConfig.java:15-53 | Whatever the userinfo split: no URL or a non-"postgres://" one gives H2. For a "postgres://" URL:<br>- A URI that does not parse, and only that, gives "Error parsing DATABASE_URL".<br>- A null userinfo gives the null-userinfo failure.<br>- A failed split gives the missing-credential failure.<br>- Otherwise the source has the JDBC URL of the parsed URI, the user and password of the split, and no driver class. |
| DatabaseConfig.DataSourceFor | src/main/java/kong/com/troopsto/config/DatabaseConfig.java:15-53 | `dataSource()` as written, with the as-written userinfo split. |
| DatabaseConfig.IntendedDataSource | src/main/java/kong/com/troopsto/config/DatabaseConfig.java:15-53 | `dataSource()` with the userinfo cut at its first colon only. |
| DatabaseConfig.CredentialsAsWritten | src/main/java/kong/com/troopsto/config/DatabaseConfig.java:24-25 | `split(":")[0]` and `[1]`: when both exist, the userinfo has a colon and neither piece holds one. |
| DatabaseConfig.IntendedCredentials | src/main/java/kong/com/troopsto/config/DatabaseConfig.java:24-25 | The corrected split: succeeds iff the userinfo has a colon. The user name is colon-free, and user, ":" and password give the userinfo back. |
| DatabaseConfig.FallbackToH2 | src/main/java/kong/com/troopsto/config/DatabaseConfig.java:20-52 | No URL, or one not starting with "postgres://", gives the H2 source. This includes "postgresql://" and "POSTGRES://", since the prefix test is exact. |
| DatabaseConfig.QueryAppendedIffPresent | src/main/java/kong/com/troopsto/config/DatabaseConfig.java:26-30 | The JDBC URL starts with "jdbc:postgresql://". When the host and the decoded path hold no "?", the URL holds "?" iff the URI has a query. |
| DatabaseConfig.DecodedQuestionMark | src/main/java/kong/com/troopsto/config/DatabaseConfig.java:26 | A "?" in the decoded path (written "%3F" in the URL) reaches the JDBC URL even when the URI has no query. |
| DatabaseConfig.PostgresCredentials | src/main/java/kong/com/troopsto/config/DatabaseConfig.java:22-39 | For "user:password" userinfo with no other colon and a non-empty password, the connection uses exactly that user and password. |
| DatabaseConfig.ColonInPasswordIsCut | src/main/java/kong/com/troopsto/config/DatabaseConfig.java:24-25 | As written, a password holding a colon is cut at it. The corrected split keeps all of it. |
| DatabaseConfig.EmptyPasswordFails | src/main/java/kong/com/troopsto/config/DatabaseConfig.java:24-25 | As written, an empty password makes `split(":")[1]` fail. The corrected split gives "". |
| DatabaseConfig.IntendedPostgresCredentials | src/main/java/kong/com/troopsto/config/DatabaseConfig.java:22-39 | With the corrected split, a colon-free user name and any password, empty or holding colons, reach the connection unchanged. |
| DatabaseConfig.IntendedCredentialsRoundTrip | src/main/java/kong/com/troopsto/config/DatabaseConfig.java:24-25 | The corrected split gives back any password after a colon-free user name. |
| Text.Join | frontend/src/components/task/TaskAdd.tsx:84 | `parts.join(sep)`, the partner of `Split` in `SplitJoin`. |
| Text.Split | frontend/src/components/task/TaskAdd.tsx:84 | JavaScript `split` on one character: at least one piece, and no piece holds the separator. |
| Text.SplitJoin | frontend/src/components/task/TaskAdd.tsx:84 | Joining the pieces gives the string back. |
| Text.SplitNoSeparator | frontend/src/components/task/TaskAdd.tsx:84 | A string without the separator is one piece. |
| Text.SplitFirstField | src/main/java/kong/com/troopsto/config/DatabaseConfig.java:24 | A colon-free first field comes off as the first piece. |
| Text.JavaSplit | src/main/java/kong/com/troopsto/config/DatabaseConfig.java:24 | Java `split` with limit 0: the whole string when the separator does not occur. Otherwise the JavaScript pieces with the trailing empty pieces removed, so the last piece left is non-empty. |
| Text.IsDigit | frontend/src/components/task/TaskAdd.tsx:84 | A character '0' to '9'. |
| Text.DigitsValue | src/main/java/kong/com/troopsto/config/DatabaseConfig.java:26 | The decimal value of a digit string: never negative, and at least ten times the value of its prefix. |
| Text.IntToString | src/main/java/kong/com/troopsto/config/DatabaseConfig.java:26 | An int in string concatenation, the one rendering Java gives: a non-negative int is digits with no leading zero whose decimal value is the int. A negative one is "-" followed by the digits of its magnitude, again with no leading zero. |
| Text.NatToString | src/main/java/kong/com/troopsto/config/DatabaseConfig.java:26 | A non-negative int renders as digits with no leading zero, whose decimal value is the number. |
| Text.AbsentPort | src/main/java/kong/com/troopsto/config/DatabaseConfig.java:26 | A URI without a port (`getPort()` is -1) puts "-1" into the JDBC URL. |

## Left out

- Time zones and daylight-saving time:
  - Backend instants are one unbounded local time line. The `Instant` to system-zone conversion is not modelled.
  - Client instants are local milliseconds with no offset.
  - The UTC `toISOString().slice(11, 16)` used to prefill times is an abstract function (`utcTime`).
- Date parsing and formatting are abstract functions:
  - The ISO and local date-time grammars of `parseDateTime`.
  - `new Date(string)`, `toISOString`.
  - The `MMM dd, yyyy HH:mm` pattern, `toLocaleTimeString`.
- JavaScript `Date` details:
  - Years 0 to 99 map to the 1900s in `new Date(y, m, ...)`; years here are plain integers.
  - The TimeClip range limit is not modelled.
- `Number(s)` for time pieces covers digit strings and "". Whitespace, signs, decimals and exponents read as NaN here.
- Concurrency and transactions:
  - A partly applied `assignSoldiers` is not rolled back in the model.
  - `ConcurrentHashMap` is a plain map.
  - Overlapping async `validateForm` runs are not modelled.
- `UUID.randomUUID` becomes a fresh-id parameter assumed unused. The database id generator is likewise a fresh-id parameter.
- BCrypt `encode` and `matches` are abstract functions.
- `java.net.URI` parsing is an abstract function from the URL to its parts. The model does not say which strings are syntax errors.
- Database strings are non-null, except `Task.assigned` and the URI's optional parts:
  - A null `Soldier.tasks` is not modelled.
  - `Soldier.GetTasks` has no null case.
- `ProfileService.Profiles.FindProfileByName` returns some match. The JPA exception for several profiles with one name is not modelled.
- The `Profile` entity and the `Role` enumeration are not part of this model; only the fields the services use are kept.
- The repository interfaces' query methods are not modelled. Storage itself is a map from id to entity, passed to the services or held as a field.
- HTTP plumbing is not modelled:
  - `fetch` is not modelled; replies are parameters.
  - `ResponseEntity` is not modelled; statuses are `Result` errors.
  - `TaskController` is not modelled.
  - Alerts, console output and navigation are not modelled.
- Rendering is not modelled. The calendar grid is modelled as data.
- `TaskAdd.TaskForm.HandleSubmit`: when there is no user, the browser's native form submission (no `preventDefault`) is not modelled.
- `SoldierController.CheckConflict`: the second pass may walk the set in a different order from `hasConflict`. The model lets each loop pick any order.
- `Calendar.CalendarPage.GoToToday`: the clock reading is a parameter.
- `TaskAdd.TaskForm.constructor` requires `Renderable`: an existing task whose truthy date does not parse is excluded. There the component throws while it renders, at `toISOString()` (`TaskAdd.tsx` lines 45 and 52), and no form exists. No caller in the client passes `currentTask`.

## Findings

| source | as written | input that shows it | evidently intended | confidence | as-written member | corrected member |
|---|---|---|---|---|---|---|
| frontend/src/page/SignupPage.tsx:29-49 | `setIsValid(true)` after the if/else runs for every non-blank name, so a taken name or a failed check ends valid | username "alice" with the lookup answering `exists: true` (or throwing) | valid only when the name is reported available | high (not executed) | SignupPage.ValidityAsWritten, shown by SignupPage.TakenNameIsAccepted and SignupPage.AliceIsAccepted | SignupPage.IntendedValidity, proved by SignupPage.IntendedValidityMatchesFeedback |
| src/main/java/kong/com/troopsto/config/DatabaseConfig.java:24-25 | userinfo is split on every ":" with trailing empty pieces dropped, so a password with a colon is cut and an empty password throws ArrayIndexOutOfBounds | userinfo "app:s3:cret" gives password "s3"; userinfo "app:" throws | user name before the first colon, password everything after it | high (not executed) | DatabaseConfig.CredentialsAsWritten, shown by DatabaseConfig.ColonInPasswordIsCut and DatabaseConfig.EmptyPasswordFails | DatabaseConfig.IntendedCredentials and DatabaseConfig.IntendedDataSource, proved by DatabaseConfig.IntendedCredentialsRoundTrip and DatabaseConfig.IntendedPostgresCredentials |

=== FILE: api.dfy ===
/**
 * `apiUrl(endpoint)`: the configured base URL followed by the endpoint, with a leading
 * slash added when the endpoint lacks one.
 */
module Api {
  import opened Wrappers

  /** `API_BASE_URL`: the build-time `VITE_API_URL`, or "" (relative URLs) when it is unset or empty. */
  function BaseUrl(viteApiUrl: Option<string>): string {
    if viteApiUrl.Some? && viteApiUrl.value != "" then viteApiUrl.value else ""
  }

  /** The endpoint as a path: unchanged when it starts with "/", else with "/" put in front. */
  function Path(endpoint: string): (r: string)
    ensures |r| > 0 && r[0] == '/'
    ensures r[1..] == if |endpoint| > 0 && endpoint[0] == '/' then endpoint[1..] else endpoint
  {
    if |endpoint| > 0 && endpoint[0] == '/' then endpoint else "/" + endpoint
  }

  function ApiUrl(base: string, endpoint: string): (r: string)
    ensures |r| > |base| && r[..|base|] == base && r[|base|..] == Path(endpoint)
  {
    base + Path(endpoint)
  }

  /**
   * The URL is the base followed by a path that starts with "/" and then carries the endpoint
   * without its leading slash; an endpoint that has one is appended as it is.
   */
  lemma ApiUrlShape(base: string, endpoint: string)
    ensures var r := ApiUrl(base, endpoint);
      && |r| > |base| && r[..|base|] == base && r[|base|] == '/'
      && (|endpoint| > 0 && endpoint[0] == '/' ==> r == base + endpoint)
      && (|endpoint| == 0 || endpoint[0] != '/' ==> r[|base| + 1..] == endpoint)
  {
  }

  /** Normalising a normalised path changes nothing, so `apiUrl` gives the same URL for both. */
  lemma PathIdempotent(base: string, endpoint: string)
    ensures Path(Path(endpoint)) == Path(endpoint)
    ensures ApiUrl(base, Path(endpoint)) == ApiUrl(base, endpoint)
  {
  }

  /** The empty endpoint is the root of the API. */
  lemma EmptyEndpoint(base: string)
    ensures ApiUrl(base, "") == base + "/"
  {
  }

  /** With no configured base the URL is the relative path itself. */
  lemma RelativeWithoutBase(endpoint: string)
    ensures ApiUrl(BaseUrl(None), endpoint) == Path(endpoint)
    ensures ApiUrl(BaseUrl(Some("")), endpoint) == Path(endpoint)
  {
  }
}

=== FILE: auth_provider.dfy ===
/**
 * The login state of the client: `isLoggedIn` and `userId`, read at start-up from the
 * browser's key-value storage and written back by `login` and `logout`.
 */
module AuthProvider {
  import opened Wrappers

  const SessionKey := "sessionId"
  const UserKey := "userId"

  type Storage = map<string, string>

  /** `!!localStorage.getItem("sessionId")`: a stored, non-empty session id. */
  predicate HasSession(storage: Storage) {
    SessionKey in storage && storage[SessionKey] != ""
  }

  /** The storage after `login`: both keys written, nothing else touched. */
  function SignedIn(storage: Storage, sessionId: string, userId: string): Storage {
    storage[SessionKey := sessionId][UserKey := userId]
  }

  /** The storage after `logout`: both keys removed, nothing else touched. */
  function SignedOut(storage: Storage): Storage {
    storage - {SessionKey, UserKey}
  }

  /** A reload after `login` finds the user signed in again exactly when the session id was non-empty. */
  lemma SignedInIsRestored(storage: Storage, sessionId: string, userId: string)
    ensures HasSession(SignedIn(storage, sessionId, userId)) <==> sessionId != ""
    ensures Get(SignedIn(storage, sessionId, userId), UserKey) == Some(userId)
    ensures forall k :: k != SessionKey && k != UserKey ==>
              Get(SignedIn(storage, sessionId, userId), k) == Get(storage, k)
  {
  }

  /** After `logout` a reload finds nobody signed in; logging out again changes nothing; other keys stay. */
  lemma SignedOutIsFinal(storage: Storage)
    ensures !HasSession(SignedOut(storage)) && Get(SignedOut(storage), UserKey) == None
    ensures SignedOut(SignedOut(storage)) == SignedOut(storage)
    ensures forall k :: k != SessionKey && k != UserKey ==> Get(SignedOut(storage), k) == Get(storage, k)
  {
  }

  class Auth {
    var storage: Storage
    var isLoggedIn: bool
    var userId: Option<string>

    /** The state says what a fresh start from the storage would say. */
    ghost predicate Consistent()
      reads this
    {
      isLoggedIn == HasSession(storage) && userId == Get(storage, UserKey)
    }

    /** The lazy initial state: logged in iff a session id is stored; the stored user id or null. */
    constructor (stored: Storage)
      ensures storage == stored && Consistent()
      ensures isLoggedIn == HasSession(stored) && userId == Get(stored, UserKey)
      ensures stored == map[] ==> !isLoggedIn && userId == None
    {
      storage := stored;
      isLoggedIn := HasSession(stored);
      userId := Get(stored, UserKey);
    }

    /** The mount effect: with both keys stored (non-empty) it signs in; otherwise it does nothing, and it never signs out. */
    method MountEffect()
      modifies this`isLoggedIn, this`userId
      ensures HasSession(storage) && UserKey in storage && storage[UserKey] != "" ==>
                isLoggedIn && userId == Some(storage[UserKey])
      ensures !(HasSession(storage) && UserKey in storage && storage[UserKey] != "") ==>
                isLoggedIn == old(isLoggedIn) && userId == old(userId)
      ensures old(isLoggedIn) ==> isLoggedIn
      ensures old(Consistent()) ==> Consistent()
    {
      var storedSessionId := Get(storage, SessionKey);
      var storedUserId := Get(storage, UserKey);
      if storedSessionId.Some? && storedSessionId.value != "" && storedUserId.Some? && storedUserId.value != "" {
        isLoggedIn := true;
        userId := storedUserId;
      }
    }

    method Login(sessionId: string, newUserId: string)
      modifies this
      ensures storage == SignedIn(old(storage), sessionId, newUserId)
      ensures isLoggedIn && userId == Some(newUserId)
      ensures Consistent() <==> sessionId != ""
    {
      storage := storage[SessionKey := sessionId];
      storage := storage[UserKey := newUserId];
      isLoggedIn := true;
      userId := Some(newUserId);
      SignedInIsRestored(old(storage), sessionId, newUserId);
    }

    method Logout()
      modifies this
      ensures storage == SignedOut(old(storage))
      ensures !isLoggedIn && userId == None
      ensures Consistent()
    {
      storage := storage - {SessionKey};
      storage := storage - {UserKey};
      isLoggedIn := false;
      userId := None;
      assert storage == SignedOut(old(storage));
      SignedOutIsFinal(old(storage));
    }
  }
}

=== FILE: calendar.dfy ===
/**
 * The month view of the calendar page: civil-date arithmetic as JavaScript's `Date`
 * performs it (the DayFromYear, MakeDay and WeekDay operations of ECMA-262, on local
 * time with no time-zone offset), the per-day task buckets with their inclusive
 * overlap, the three-per-cell truncation, and month navigation.
 *
 * Day numbers count days from 1970-01-01 (day 0, a Thursday); instants are local
 * milliseconds. `new Date(string)` is an abstract parser, `None` for an Invalid Date.
 */
module Calendar {
  import opened Wrappers
  import opened ClientTypes
  import TimeOverlap

  const MsPerDay := 86_400_000
  /** 23:59:59.000 as milliseconds after midnight. */
  const LastSecondOfDay := 86_399_000
  /** A cell lists at most this many tasks. */
  const ShownPerCell := 3

  predicate IsLeapYear(y: int) {
    y % 4 == 0 && (y % 100 != 0 || y % 400 == 0)
  }

  /** The Gregorian table of month lengths; `m` counts from 0 = January as `getMonth` does. */
  function MonthLength(y: int, m: int): int
    requires 0 <= m < 12
  {
    if m == 1 then (if IsLeapYear(y) then 29 else 28)
    else if m == 3 || m == 5 || m == 8 || m == 10 then 30
    else 31
  }

  /** Days of year `y` before the first of month `m`. */
  function DaysBeforeMonth(y: int, m: int): int
    requires 0 <= m <= 12
  {
    if m == 0 then 0 else DaysBeforeMonth(y, m - 1) + MonthLength(y, m - 1)
  }

  /** ECMA-262 DayFromYear: the day number of January 1st of year `y` (floor divisions). */
  function DayFromYear(y: int): int {
    365 * (y - 1970) + (y - 1969) / 4 - (y - 1901) / 100 + (y - 1601) / 400
  }

  /**
   * ECMA-262 MakeDay, what `new Date(y, m, d)` computes: the month carries into the year
   * (`m` may be any integer) and the date counts on from the first (it may be 0 or past the end).
   */
  function MakeDay(y: int, m: int, d: int): int {
    var ym := y + m / 12;
    var mn := m % 12;
    DayFromYear(ym) + DaysBeforeMonth(ym, mn) + d - 1
  }

  /** ECMA-262 WeekDay, what `getDay` returns: 0 = Sunday; day 0 is a Thursday. */
  function WeekDay(day: int): int {
    (day + 4) % 7
  }

  // ---------------------------------------------------------------------------
  // getDaysInMonth

  datatype MonthInfo = MonthInfo(daysInMonth: int, startingDayOfWeek: int, year: int, month: int)

  /**
   * `getDaysInMonth`: `new Date(year, month + 1, 0).getDate()` is the date of the day before
   * the first of the next month; it lies in this month (see LastDayInMonth), so its date is
   * its distance from this month's first day, plus one.
   */
  function GetDaysInMonth(year: int, month: int): (r: MonthInfo)
    requires 0 <= month < 12
    ensures r.daysInMonth == MonthLength(year, month)
    ensures 0 <= r.startingDayOfWeek < 7 && r.startingDayOfWeek == WeekDay(MakeDay(year, month, 1))
  {
    var firstDay := MakeDay(year, month, 1);
    var lastDay := MakeDay(year, month + 1, 0);
    LastDayInMonth(year, month);
    MonthInfo(lastDay - firstDay + 1, WeekDay(firstDay), year, month)
  }

  /** The quarter-count term of DayFromYear steps up in the year after a multiple of 4. */
  lemma FourYearStep(y: int)
    ensures (y - 1968) / 4 - (y - 1969) / 4 == if y % 4 == 0 then 1 else 0
  {
  }

  /** The century term steps up in the year after a multiple of 100. */
  lemma CenturyStep(y: int)
    ensures (y - 1900) / 100 - (y - 1901) / 100 == if y % 100 == 0 then 1 else 0
  {
  }

  /** The 400-year term steps up in the year after a multiple of 400. */
  lemma QuadricentennialStep(y: int)
    ensures (y - 1600) / 400 - (y - 1601) / 400 == if y % 400 == 0 then 1 else 0
  {
  }

  /** The year length as DayFromYear counts it: 365 plus the steps of its three floor terms. */
  lemma YearDelta(y: int)
    ensures DayFromYear(y + 1) - DayFromYear(y) ==
      365 + ((y - 1968) / 4 - (y - 1969) / 4) - ((y - 1900) / 100 - (y - 1901) / 100)
      + ((y - 1600) / 400 - (y - 1601) / 400)
  {
  }

  /** Each step counts one exactly when the year is divisible by its period. */
  lemma LeapDays(y: int)
    ensures (if y % 4 == 0 then 1 else 0) - (if y % 100 == 0 then 1 else 0) + (if y % 400 == 0 then 1 else 0)
      == if IsLeapYear(y) then 1 else 0
  {
    var four, hundred, fourHundred := y % 4 == 0, y % 100 == 0, y % 400 == 0;
    if fourHundred { CenturyOfQuadricentennial(y); }
    if hundred { QuadOfCentury(y); }
    assert fourHundred ==> hundred && hundred ==> four;
  }

  lemma QuadOfCentury(y: int)
    requires y % 100 == 0
    ensures y % 4 == 0
  {
    var k := y / 100;
    assert y == 4 * (25 * k);
  }

  lemma CenturyOfQuadricentennial(y: int)
    requires y % 400 == 0
    ensures y % 100 == 0
  {
    var k := y / 400;
    assert y == 100 * (4 * k);
  }

  /** A year has 366 days exactly when it is a leap year. */
  lemma YearLength(y: int)
    ensures DayFromYear(y + 1) - DayFromYear(y) == if IsLeapYear(y) then 366 else 365
  {
    YearDelta(y);
    FourYearStep(y);
    CenturyStep(y);
    QuadricentennialStep(y);
    LeapDays(y);
  }

  /** The month table adds up to the year length. */
  lemma DaysBeforeYearEnd(y: int)
    ensures DaysBeforeMonth(y, 11) + 31 == if IsLeapYear(y) then 366 else 365
  {
    assert DaysBeforeMonth(y, 1) == 31;
    assert DaysBeforeMonth(y, 2) == 31 + MonthLength(y, 1);
    assert DaysBeforeMonth(y, 3) == DaysBeforeMonth(y, 2) + 31;
    assert DaysBeforeMonth(y, 4) == DaysBeforeMonth(y, 3) + 30;
    assert DaysBeforeMonth(y, 5) == DaysBeforeMonth(y, 4) + 31;
    assert DaysBeforeMonth(y, 6) == DaysBeforeMonth(y, 5) + 30;
    assert DaysBeforeMonth(y, 7) == DaysBeforeMonth(y, 6) + 31;
    assert DaysBeforeMonth(y, 8) == DaysBeforeMonth(y, 7) + 31;
    assert DaysBeforeMonth(y, 9) == DaysBeforeMonth(y, 8) + 30;
    assert DaysBeforeMonth(y, 10) == DaysBeforeMonth(y, 9) + 31;
    assert DaysBeforeMonth(y, 11) == DaysBeforeMonth(y, 10) + 30;
  }

  /** The first of the next month is `MonthLength` days after the first of this one, across a year end too. */
  lemma MonthStep(y: int, m: int)
    requires 0 <= m < 12
    ensures MakeDay(y, m + 1, 1) == MakeDay(y, m, 1) + MonthLength(y, m)
  {
    if m == 11 {
      YearLength(y);
      DaysBeforeYearEnd(y);
    }
  }

  /** `new Date(y, m + 1, 0)` is the last day of month m, so its date is the month's length. */
  lemma LastDayInMonth(y: int, m: int)
    requires 0 <= m < 12
    ensures MakeDay(y, m + 1, 0) == MakeDay(y, m, MonthLength(y, m))
    ensures MakeDay(y, m, 1) <= MakeDay(y, m + 1, 0) < MakeDay(y, m + 1, 1)
  {
    MonthStep(y, m);
  }

  /** `daysInMonth` is the Gregorian length: 29 for a leap February, 28 for another, 30 or 31 otherwise. */
  lemma DaysInMonthIsGregorian(y: int, m: int)
    requires 0 <= m < 12
    ensures GetDaysInMonth(y, m).daysInMonth == MonthLength(y, m)
    ensures m == 1 ==> GetDaysInMonth(y, m).daysInMonth == (if IsLeapYear(y) then 29 else 28)
    ensures m != 1 ==> GetDaysInMonth(y, m).daysInMonth in {30, 31}
  {
    LastDayInMonth(y, m);
  }

  /** Moving a day number forward moves its weekday forward, modulo 7. */
  lemma WeekDayShift(day: int, n: int)
    ensures 0 <= WeekDay(day) < 7
    ensures WeekDay(day + n) == (WeekDay(day) + n) % 7
  {
  }

  /** `startingDayOfWeek` is a weekday, and the next month starts `daysInMonth` weekdays later. */
  lemma StartingDayOfWeek(y: int, m: int)
    requires 0 <= m < 12
    ensures 0 <= GetDaysInMonth(y, m).startingDayOfWeek < 7
    ensures WeekDay(MakeDay(y, m + 1, 1))
            == (GetDaysInMonth(y, m).startingDayOfWeek + GetDaysInMonth(y, m).daysInMonth) % 7
  {
    var first := MakeDay(y, m, 1);
    DaysInMonthIsGregorian(y, m);
    MonthStep(y, m);
    WeekDayShift(first, MonthLength(y, m));
  }

  /** Leap years repeat every 400 years. */
  lemma LeapPeriodic(y: int)
    ensures IsLeapYear(y + 400) == IsLeapYear(y)
  {
    assert (y + 400) % 4 == y % 4;
    assert (y + 400) % 100 == y % 100;
    assert (y + 400) % 400 == y % 400;
  }

  /** So the month table repeats too. */
  lemma {:induction false} DaysBeforeMonthPeriodic(y: int, m: int)
    requires 0 <= m <= 12
    ensures DaysBeforeMonth(y + 400, m) == DaysBeforeMonth(y, m)
  {
    if m > 0 {
      DaysBeforeMonthPeriodic(y, m - 1);
      LeapPeriodic(y);
      assert MonthLength(y + 400, m - 1) == MonthLength(y, m - 1);
    }
  }

  /** 400 Gregorian years are 146097 days. */
  lemma DayFromYearPeriodic(y: int)
    ensures DayFromYear(y + 400) == DayFromYear(y) + 146097
  {
    assert (y + 400 - 1969) / 4 == (y - 1969) / 4 + 100;
    assert (y + 400 - 1901) / 100 == (y - 1901) / 100 + 4;
    assert (y + 400 - 1601) / 400 == (y - 1601) / 400 + 1;
  }

  /** The Gregorian cycle: 400 years are 146097 days, a whole number of weeks, so weekdays repeat. */
  lemma WeekdaysRepeat(y: int, m: int, d: int)
    ensures MakeDay(y + 400, m, d) == MakeDay(y, m, d) + 146097
    ensures WeekDay(MakeDay(y + 400, m, d)) == WeekDay(MakeDay(y, m, d))
  {
    var ym := y + m / 12;
    assert (y + 400) + m / 12 == ym + 400;
    DaysBeforeMonthPeriodic(ym, m % 12);
    DayFromYearPeriodic(ym);
    WeekDayShift(MakeDay(y, m, d), 146097);
  }

  // ---------------------------------------------------------------------------
  // Month navigation

  datatype YearMonth = YearMonth(year: int, month: int) {
    predicate Valid() {
      0 <= month < 12
    }

    /** Months counted from January of year 0. */
    function Index(): int {
      12 * year + month
    }
  }

  /** `new Date(year, month)` keeps only a valid (year, month) pair: an out-of-range month carries. */
  function Normalize(year: int, month: int): (r: YearMonth)
    ensures r.Valid()
    ensures r.Index() == 12 * year + month
  {
    YearMonth(year + month / 12, month % 12)
  }

  /** `previousMonth`: `new Date(getFullYear(), getMonth() - 1)`. */
  function MonthBefore(ym: YearMonth): (r: YearMonth)
    ensures r.Valid() && r.Index() == ym.Index() - 1
  {
    Normalize(ym.year, ym.month - 1)
  }

  /** `nextMonth`: `new Date(getFullYear(), getMonth() + 1)`. */
  function MonthAfter(ym: YearMonth): (r: YearMonth)
    ensures r.Valid() && r.Index() == ym.Index() + 1
  {
    Normalize(ym.year, ym.month + 1)
  }

  /** From January, the previous month is December of the year before; otherwise the year stays. */
  lemma PreviousMonthWraps(ym: YearMonth)
    requires ym.Valid()
    ensures MonthBefore(ym) == if ym.month == 0 then YearMonth(ym.year - 1, 11) else YearMonth(ym.year, ym.month - 1)
  {
  }

  /** From December, the next month is January of the year after; otherwise the year stays. */
  lemma NextMonthWraps(ym: YearMonth)
    requires ym.Valid()
    ensures MonthAfter(ym) == if ym.month == 11 then YearMonth(ym.year + 1, 0) else YearMonth(ym.year, ym.month + 1)
  {
  }

  /** A valid pair is determined by its month index. */
  lemma IndexDetermines(a: YearMonth, b: YearMonth)
    requires a.Valid() && b.Valid() && a.Index() == b.Index()
    ensures a == b
  {
  }

  /** Navigation moves one month each way, and either order of the two steps returns to the start. */
  lemma NavigationRoundTrip(ym: YearMonth)
    requires ym.Valid()
    ensures MonthAfter(ym).Index() == ym.Index() + 1 && MonthBefore(ym).Index() == ym.Index() - 1
    ensures MonthAfter(MonthBefore(ym)) == ym
    ensures MonthBefore(MonthAfter(ym)) == ym
  {
    IndexDetermines(MonthAfter(MonthBefore(ym)), ym);
    IndexDetermines(MonthBefore(MonthAfter(ym)), ym);
  }

  // ---------------------------------------------------------------------------
  // Tasks of a day

  /** `new Date(s)` as a local instant in milliseconds; `None` is an Invalid Date. */
  type DateParser = string -> Option<int>

  /**
   * `new Date(task.start)` where the property may be missing: `new Date(undefined)` is invalid.
   * A `null` from the server would instead give the epoch; the database columns are never
   * null here, so that case does not arise in this model.
   */
  function JsDate(parse: DateParser, s: Option<string>): Option<int> {
    if s.None? then None else parse(s.value)
  }

  /** The first millisecond of `day` of the displayed month, `new Date(year, month, day, 0, 0, 0)`. */
  function DayStart(ym: YearMonth, day: int): int {
    MakeDay(ym.year, ym.month, day) * MsPerDay
  }

  /** `new Date(year, month, day, 23, 59, 59)`. */
  function DayEnd(ym: YearMonth, day: int): int {
    DayStart(ym, day) + LastSecondOfDay
  }

  /**
   * The filter test of `getTasksForDay`: `taskStart <= dayEnd && taskEnd >= dayStart`, both
   * ends inclusive. Any comparison with an Invalid Date is false.
   */
  predicate OnDay(parse: DateParser, t: TaskRecord, dayStart: int, dayEnd: int) {
    var s := JsDate(parse, t.start);
    var e := JsDate(parse, t.end);
    s.Some? && e.Some? && s.value <= dayEnd && e.value >= dayStart
  }

  /** `tasks.filter(...)` with the day's window. */
  function FilterOnDay(tasks: seq<TaskRecord>, parse: DateParser, dayStart: int, dayEnd: int): (r: seq<TaskRecord>)
    ensures |r| <= |tasks|
    ensures forall i :: 0 <= i < |r| ==> r[i] in tasks && OnDay(parse, r[i], dayStart, dayEnd)
  {
    if tasks == [] then []
    else
      var rest := FilterOnDay(tasks[1..], parse, dayStart, dayEnd);
      assert forall x :: x in rest ==> x in tasks[1..] ==> x in tasks;
      (if OnDay(parse, tasks[0], dayStart, dayEnd) then [tasks[0]] else []) + rest
  }

  /** `getTasksForDay(day)` in the displayed month. */
  function GetTasksForDay(ym: YearMonth, tasks: seq<TaskRecord>, parse: DateParser, day: int): (r: seq<TaskRecord>)
    ensures |r| <= |tasks|
    ensures forall i :: 0 <= i < |r| ==> r[i] in tasks && OnDay(parse, r[i], DayStart(ym, day), DayEnd(ym, day))
  {
    FilterOnDay(tasks, parse, DayStart(ym, day), DayEnd(ym, day))
  }

  /** The bucket holds exactly the tasks that meet the day's window. */
  lemma {:induction false} FilterMembers(tasks: seq<TaskRecord>, parse: DateParser, dayStart: int, dayEnd: int, t: TaskRecord)
    ensures t in FilterOnDay(tasks, parse, dayStart, dayEnd) <==> t in tasks && OnDay(parse, t, dayStart, dayEnd)
  {
    if tasks != [] {
      FilterMembers(tasks[1..], parse, dayStart, dayEnd, t);
      assert tasks == [tasks[0]] + tasks[1..];
    }
  }

  /** The filter keeps the original order: it distributes over concatenation. */
  lemma {:induction false} FilterAppend(a: seq<TaskRecord>, b: seq<TaskRecord>, parse: DateParser, dayStart: int, dayEnd: int)
    ensures FilterOnDay(a + b, parse, dayStart, dayEnd)
            == FilterOnDay(a, parse, dayStart, dayEnd) + FilterOnDay(b, parse, dayStart, dayEnd)
  {
    if a == [] {
      assert a + b == b;
    } else {
      assert (a + b)[1..] == a[1..] + b;
      FilterAppend(a[1..], b, parse, dayStart, dayEnd);
    }
  }

  /** A task that ends exactly at midnight is in that day's bucket, although the backend's strict rule would not count it. */
  lemma InclusiveAtMidnight(parse: DateParser, t: TaskRecord, ym: YearMonth, day: int)
    requires JsDate(parse, t.start).Some? && JsDate(parse, t.end).Some?
    requires JsDate(parse, t.start).value <= JsDate(parse, t.end).value == DayStart(ym, day)
    ensures t in GetTasksForDay(ym, [t], parse, day)
    ensures !TimeOverlap.StrictOverlap(JsDate(parse, t.start).value, JsDate(parse, t.end).value, DayStart(ym, day), DayEnd(ym, day))
  {
    FilterMembers([t], parse, DayStart(ym, day), DayEnd(ym, day), t);
  }

  /** A task in the buckets of two days of the month is in the bucket of every day between them. */
  lemma SpansEveryDayBetween(parse: DateParser, t: TaskRecord, ym: YearMonth, d1: int, d: int, d2: int)
    requires d1 <= d <= d2
    requires OnDay(parse, t, DayStart(ym, d1), DayEnd(ym, d1)) && OnDay(parse, t, DayStart(ym, d2), DayEnd(ym, d2))
    ensures OnDay(parse, t, DayStart(ym, d), DayEnd(ym, d))
  {
    assert DayStart(ym, d) <= DayStart(ym, d2) by {
      assert MakeDay(ym.year, ym.month, d) <= MakeDay(ym.year, ym.month, d2);
    }
    assert DayStart(ym, d1) <= DayStart(ym, d) by {
      assert MakeDay(ym.year, ym.month, d1) <= MakeDay(ym.year, ym.month, d);
    }
  }

  // ---------------------------------------------------------------------------
  // Day cells

  /** The date of today, as the clock gives it (month counted from 0). */
  datatype CivilDate = CivilDate(year: int, month: int, day: int)

  /** `isToday(day)` for the displayed month. */
  predicate IsToday(ym: YearMonth, today: CivilDate, day: int) {
    day == today.day && ym.month == today.month && ym.year == today.year
  }

  /** What one day cell shows: its date, the today mark, the first three tasks and the "+n more" count (0: no line). */
  datatype DayCell = DayCell(day: int, isToday: bool, shown: seq<TaskRecord>, more: int)

  function Cell(day: int, isToday: bool, dayTasks: seq<TaskRecord>): (r: DayCell)
    ensures r.day == day && r.isToday == isToday
    ensures |r.shown| <= ShownPerCell && r.shown <= dayTasks && |r.shown| + r.more == |dayTasks|
  {
    DayCell(day, isToday,
            if |dayTasks| <= ShownPerCell then dayTasks else dayTasks[..ShownPerCell],
            if |dayTasks| > ShownPerCell then |dayTasks| - ShownPerCell else 0)
  }

  /** A cell shows min(n, 3) tasks, the first ones, and a "+(n-3) more" line exactly when n > 3. */
  lemma CellTruncation(day: int, isToday: bool, dayTasks: seq<TaskRecord>)
    ensures var c := Cell(day, isToday, dayTasks);
      && |c.shown| == (if |dayTasks| < 3 then |dayTasks| else 3)
      && c.shown == dayTasks[..|c.shown|]
      && (c.more > 0 <==> |dayTasks| > 3)
      && (c.more > 0 ==> c.more == |dayTasks| - 3)
      && |c.shown| + c.more == |dayTasks|
  {
  }

  /** The grid of a month: the empty leading cells and one cell per day, 1 to `daysInMonth`. */
  datatype MonthGrid = MonthGrid(leadingBlanks: int, cells: seq<DayCell>)

  /** The cell of date `day` of the displayed month. */
  function DayCellOf(ym: YearMonth, tasks: seq<TaskRecord>, parse: DateParser, today: CivilDate, day: int): (c: DayCell)
    ensures c.day == day
  {
    Cell(day, IsToday(ym, today, day), GetTasksForDay(ym, tasks, parse, day))
  }

  function Grid(ym: YearMonth, tasks: seq<TaskRecord>, parse: DateParser, today: CivilDate): (r: MonthGrid)
    requires ym.Valid()
    ensures 0 <= r.leadingBlanks < 7 && |r.cells| == MonthLength(ym.year, ym.month)
    ensures forall i :: 0 <= i < |r.cells| ==> r.cells[i].day == i + 1
  {
    var info := GetDaysInMonth(ym.year, ym.month);
    var n := MonthLength(ym.year, ym.month);
    MonthGrid(info.startingDayOfWeek, seq(n, i => DayCellOf(ym, tasks, parse, today, i + 1)))
  }

  /** The grid has one cell per Gregorian day of the month, each showing that day's bucket, after fewer than seven blanks. */
  lemma GridShape(ym: YearMonth, tasks: seq<TaskRecord>, parse: DateParser, today: CivilDate)
    requires ym.Valid()
    ensures var g := Grid(ym, tasks, parse, today);
      && 0 <= g.leadingBlanks < 7
      && |g.cells| == MonthLength(ym.year, ym.month)
      && (forall i :: 0 <= i < |g.cells| ==>
            g.cells[i].day == i + 1
            && g.cells[i] == Cell(i + 1, IsToday(ym, today, i + 1), GetTasksForDay(ym, tasks, parse, i + 1)))
  {
    DaysInMonthIsGregorian(ym.year, ym.month);
  }

  /**
   * Only today's cell can be marked, and only while today's month is displayed; when today's
   * date has a cell in the displayed month, that cell is marked exactly when the month is today's.
   */
  lemma TodayMarked(ym: YearMonth, tasks: seq<TaskRecord>, parse: DateParser, today: CivilDate)
    requires ym.Valid()
    ensures var cells := Grid(ym, tasks, parse, today).cells;
      && (forall i :: 0 <= i < |cells| && cells[i].isToday ==>
            i == today.day - 1 && ym == YearMonth(today.year, today.month))
      && (1 <= today.day <= |cells| ==>
            (cells[today.day - 1].isToday <==> ym == YearMonth(today.year, today.month)))
  {
    GridShape(ym, tasks, parse, today);
    var cells := Grid(ym, tasks, parse, today).cells;
    forall i | 0 <= i < |cells|
      ensures cells[i].isToday <==> IsToday(ym, today, i + 1)
    {
    }
  }

  // ---------------------------------------------------------------------------
  // The page state

  /** The state of CalendarPage: `currentDate` (only its year and month are read), the fetched tasks, `loading`. */
  class CalendarPage {
    var current: YearMonth
    var tasks: seq<TaskRecord>
    var loading: bool

    ghost predicate Valid()
      reads this
    {
      current.Valid()
    }

    /** The page opens on today's month, with no tasks and `loading` set. */
    constructor (today: CivilDate)
      requires 0 <= today.month < 12
      ensures Valid() && current == YearMonth(today.year, today.month)
      ensures tasks == [] && loading
    {
      current := YearMonth(today.year, today.month);
      tasks := [];
      loading := true;
    }

    /** `fetchTasks` once the reply is in: the tasks are replaced when the body parsed, and loading ends either way. */
    method FetchTasks(reply: Option<seq<TaskRecord>>)
      modifies this`tasks, this`loading
      ensures tasks == if reply.Some? then reply.value else old(tasks)
      ensures !loading
    {
      if reply.Some? {
        tasks := reply.value;
      }
      loading := false;
    }

    method PreviousMonth()
      requires Valid()
      modifies this`current
      ensures Valid() && current == MonthBefore(old(current))
      ensures current.Index() == old(current.Index()) - 1
    {
      current := MonthBefore(current);
    }

    method NextMonth()
      requires Valid()
      modifies this`current
      ensures Valid() && current == MonthAfter(old(current))
      ensures current.Index() == old(current.Index()) + 1
    {
      current := MonthAfter(current);
    }

    /** `goToToday`; the clock's reading is a parameter. */
    method GoToToday(today: CivilDate)
      requires 0 <= today.month < 12
      modifies this`current
      ensures Valid() && current == YearMonth(today.year, today.month)
      ensures IsToday(current, today, today.day)
    {
      current := YearMonth(today.year, today.month);
    }
  }
}

=== FILE: client_types.dfy ===
/**
 * The record shapes the React client holds in its state (the `Task` and `Soldier`
 * types of the frontend). Optional properties are `Option`s; `undefined` is `None`.
 * A task's `assigned` list is only rendered, never updated, and is not kept here.
 */
module ClientTypes {
  import opened Wrappers

  datatype TaskRecord = TaskRecord(
    id: Option<int>,
    name: string,
    description: string,
    location: string,
    reason: string,
    start: Option<string>,
    end: Option<string>,
    created: Option<string>)

  datatype SoldierRecord = SoldierRecord(
    id: Option<int>,
    firstName: string,
    lastName: string,
    rank: string,
    squad: string,
    team: string,
    role: string)
}

=== FILE: database_config.dfy ===
/**
 * The data source chosen at start-up from the `DATABASE_URL` environment variable: a
 * PostgreSQL connection built from the URL's parts when it starts with "postgres://",
 * otherwise an in-memory H2 database.
 *
 * `java.net.URI` parsing is abstract: it yields the URI's parts, or `None` for a
 * URISyntaxException.
 */
module DatabaseConfig {
  import opened Wrappers
  import opened Text

  const PostgresPrefix := "postgres://"
  const JdbcPrefix := "jdbc:postgresql://"

  datatype DataSource = DataSource(url: string, username: string, password: string, driver: Option<string>)

  /** The local-development fallback. */
  const H2 := DataSource("jdbc:h2:mem:testdb", "sa", "", Some("org.h2.Driver"))

  /** What `java.net.URI` reports: a null part is `None`, an absent port is -1. */
  datatype UriParts = UriParts(userInfo: Option<string>, host: Option<string>, port: int, path: string, query: Option<string>)

  type UriParser = string -> Option<UriParts>

  /** The message of the exception that wraps a URISyntaxException. */
  const UriSyntaxMessage := "Error parsing DATABASE_URL"

  /**
   * The failures `dataSource` can end in: the URI does not parse (rethrown with its message),
   * or userinfo is null, or has no second part (both uncaught).
   */
  datatype ConfigError = UriSyntaxError(message: string) | NullUserInfo | MissingCredential

  /** Java string concatenation of a possibly-null string. */
  function JavaString(s: Option<string>): string {
    if s.Some? then s.value else "null"
  }

  /** `"jdbc:postgresql://" + host + ':' + port + path`, then `"?" + query` when the query is non-null. */
  function JdbcUrl(u: UriParts): (r: string)
    ensures JdbcPrefix <= r
  {
    var base := JdbcPrefix + JavaString(u.host) + [':'] + IntToString(u.port) + u.path;
    if u.query.Some? then base + "?" + u.query.value else base
  }

  /** How userinfo is cut into user name and password; `None` where the cut fails. */
  type CredentialSplit = string -> Option<(string, string)>

  /** `dataSource()` with the environment variable, the URI parser and the userinfo split as parameters. */
  function DataSourceWith(databaseUrl: Option<string>, parseUri: UriParser, split: CredentialSplit): (r: Result<DataSource, ConfigError>)
    ensures databaseUrl.None? || !(PostgresPrefix <= databaseUrl.value) ==> r == Ok(H2)
    ensures r.Ok? && r != Ok(H2) ==> JdbcPrefix <= r.value.url && r.value.driver.None?
    ensures r.Err? ==> databaseUrl.Some? && PostgresPrefix <= databaseUrl.value
    ensures databaseUrl.Some? && PostgresPrefix <= databaseUrl.value ==>
              (r == Err(UriSyntaxError(UriSyntaxMessage)) <==> parseUri(databaseUrl.value).None?)
    ensures databaseUrl.Some? && PostgresPrefix <= databaseUrl.value && parseUri(databaseUrl.value).Some? ==>
              var u := parseUri(databaseUrl.value).value;
              (u.userInfo.None? ==> r == Err(NullUserInfo))
              && (u.userInfo.Some? && split(u.userInfo.value).None? ==> r == Err(MissingCredential))
              && (u.userInfo.Some? && split(u.userInfo.value).Some? ==>
                    r == Ok(DataSource(JdbcUrl(u), split(u.userInfo.value).value.0, split(u.userInfo.value).value.1, None)))
  {
    if databaseUrl.None? || !(PostgresPrefix <= databaseUrl.value) then Ok(H2)
    else
      var parsed := parseUri(databaseUrl.value);
      if parsed.None? then Err(UriSyntaxError(UriSyntaxMessage))
      else
        var u := parsed.value;
        if u.userInfo.None? then Err(NullUserInfo)
        else
          var parts := split(u.userInfo.value);
          if parts.None? then Err(MissingCredential)
          else Ok(DataSource(JdbcUrl(u), parts.value.0, parts.value.1, None))
  }

  /** `dataSource()` as written. */
  function DataSourceFor(databaseUrl: Option<string>, parseUri: UriParser): Result<DataSource, ConfigError> {
    DataSourceWith(databaseUrl, parseUri, CredentialsAsWritten)
  }

  /** `dataSource()` with the userinfo cut at its first colon only. */
  function IntendedDataSource(databaseUrl: Option<string>, parseUri: UriParser): Result<DataSource, ConfigError> {
    DataSourceWith(databaseUrl, parseUri, IntendedCredentials)
  }

  /** `userInfo.split(":")[0]` and `[1]`: `None` where either index is out of bounds. */
  function CredentialsAsWritten(userInfo: string): (r: Option<(string, string)>)
    ensures r.Some? ==> ':' in userInfo && ':' !in r.value.0 && ':' !in r.value.1
  {
    var parts := JavaSplit(userInfo, ':');
    if |parts| < 2 then None else Some((parts[0], parts[1]))
  }

  /** The user name up to the first colon and the password after it, whatever the password holds. */
  function IntendedCredentials(userInfo: string): (r: Option<(string, string)>)
    ensures r.Some? <==> ':' in userInfo
    ensures r.Some? ==> ':' !in r.value.0 && userInfo == r.value.0 + ":" + r.value.1
  {
    if ':' !in userInfo then None
    else
      var i := FirstIndex(userInfo, ':');
      assert userInfo == userInfo[..i] + ":" + userInfo[i + 1..];
      Some((userInfo[..i], userInfo[i + 1..]))
  }

  function FirstIndex(s: string, c: char): (i: int)
    requires c in s
    ensures 0 <= i < |s| && s[i] == c && c !in s[..i]
  {
    if s[0] == c then 0
    else
      var j := FirstIndex(s[1..], c) + 1;
      assert s[..j] == [s[0]] + s[1..][..j - 1];
      j
  }

  /** Without a URL, or with any other scheme spelling, the H2 fallback is used; the prefix test is exact. */
  lemma FallbackToH2(databaseUrl: Option<string>, parseUri: UriParser)
    requires databaseUrl.None? || !(PostgresPrefix <= databaseUrl.value)
    ensures DataSourceFor(databaseUrl, parseUri) == Ok(H2)
    ensures DataSourceFor(Some("postgresql://db:5432/app"), parseUri) == Ok(H2)
    ensures DataSourceFor(Some("POSTGRES://db:5432/app"), parseUri) == Ok(H2)
  {
    assert "postgresql://db:5432/app"[..|PostgresPrefix|] != PostgresPrefix by {
      assert "postgresql://db:5432/app"[8] != PostgresPrefix[8];
    }
    assert "POSTGRES://db:5432/app"[0] != PostgresPrefix[0];
  }

  /**
   * For a host and a decoded path without "?", the JDBC URL holds a "?" exactly when the URI
   * has a query. `getPath` decodes, so a path written with "%3F" does hold one (see DecodedQuestionMark).
   */
  lemma QueryAppendedIffPresent(u: UriParts)
    requires u.host.Some? ==> '?' !in u.host.value
    requires '?' !in u.path
    ensures '?' in JdbcUrl(u) <==> u.query.Some?
    ensures JdbcPrefix <= JdbcUrl(u)
  {
    var base := JdbcPrefix + JavaString(u.host) + [':'] + IntToString(u.port) + u.path;
    assert '?' !in JdbcPrefix;
    assert '?' !in IntToString(u.port);
    assert '?' !in base;
    if u.query.Some? {
      assert JdbcUrl(u)[|base|] == '?';
    }
  }
  /** A "?" in the decoded path reaches the JDBC URL even when the URI has no query. */
  lemma DecodedQuestionMark(u: UriParts)
    requires '?' in u.path
    ensures '?' in JdbcUrl(u)
  {
    var base := JdbcPrefix + JavaString(u.host) + [':'] + IntToString(u.port) + u.path;
    var k :| 0 <= k < |u.path| && u.path[k] == '?';
    assert base[|base| - |u.path| + k] == '?';
    assert JdbcUrl(u)[|base| - |u.path| + k] == '?';
  }


  /** A PostgreSQL URL whose userinfo is "user:password" (no other colon) connects with those credentials. */
  lemma PostgresCredentials(databaseUrl: string, parseUri: UriParser, user: string, password: string)
    requires PostgresPrefix <= databaseUrl && parseUri(databaseUrl).Some?
    requires parseUri(databaseUrl).value.userInfo == Some(user + ":" + password)
    requires ':' !in user && ':' !in password && password != ""
    ensures DataSourceFor(Some(databaseUrl), parseUri)
            == Ok(DataSource(JdbcUrl(parseUri(databaseUrl).value), user, password, None))
  {
    SplitFirstField(user, ':', password);
    SplitNoSeparator(password, ':');
    assert user + ":" + password == user + [':'] + password;
  }

  /** As written, a password holding a colon is cut at it; the intended split keeps all of it. */
  lemma ColonInPasswordIsCut(user: string, p1: string, p2: string)
    requires ':' !in user && ':' !in p1 && ':' !in p2 && p2 != ""
    ensures CredentialsAsWritten(user + ":" + p1 + ":" + p2) == Some((user, p1))
    ensures IntendedCredentials(user + ":" + p1 + ":" + p2) == Some((user, p1 + ":" + p2))
  {
    var rest := p1 + [':'] + p2;
    assert user + ":" + p1 + ":" + p2 == user + [':'] + rest;
    SplitFirstField(user, ':', rest);
    SplitFirstField(p1, ':', p2);
    SplitNoSeparator(p2, ':');
    assert ':' in user + [':'] + rest;
    IntendedCredentialsRoundTrip(user, p1 + ":" + p2);
  }

  /** As written, an empty password fails with an index out of bounds; the intended split gives "". */
  lemma EmptyPasswordFails(user: string)
    requires ':' !in user
    ensures CredentialsAsWritten(user + ":") == None
    ensures IntendedCredentials(user + ":") == Some((user, ""))
  {
    assert user + ":" == user + [':'] + "";
    SplitFirstField(user, ':', "");
    assert ':' in user + [':'] + "";
    assert DropTrailingEmpty([user, ""]) == DropTrailingEmpty([user]) by {
      assert [user, ""][..1] == [user];
    }
    IntendedCredentialsRoundTrip(user, "");
  }

  /** The intended split gives back any password after a colon-free user name, empty or holding colons. */
  lemma IntendedCredentialsRoundTrip(user: string, password: string)
    requires ':' !in user
    ensures IntendedCredentials(user + ":" + password) == Some((user, password))
  {
    var s := user + ":" + password;
    assert s[|user|] == ':';
    assert s[..|user|] == user;
    assert s[|user| + 1..] == password;
  }

  /**
   * With the corrected split, a PostgreSQL URL whose userinfo is a colon-free user name, a
   * colon and any password connects with exactly that user and password.
   */
  lemma IntendedPostgresCredentials(databaseUrl: string, parseUri: UriParser, user: string, password: string)
    requires PostgresPrefix <= databaseUrl && parseUri(databaseUrl).Some?
    requires parseUri(databaseUrl).value.userInfo == Some(user + ":" + password)
    requires ':' !in user
    ensures IntendedDataSource(Some(databaseUrl), parseUri)
            == Ok(DataSource(JdbcUrl(parseUri(databaseUrl).value), user, password, None))
  {
    IntendedCredentialsRoundTrip(user, password);
  }
}

=== FILE: entities.dfy ===
/**
 * The two JPA entities of the scheduling core, Task and Soldier, as mutable objects.
 * `Task.assigned` is the owning side of the many-to-many task/soldier relation and
 * `Soldier.tasks` is its mapped-by inverse. Each setter changes only its own field
 * (a field-level `modifies` frame) and the matching getter returns the value set.
 *
 * String columns are modelled as non-null strings; `Task.assigned` keeps its Java
 * nullability (None = null) because `getAssigned` replaces null lazily. The field is
 * named `assignedSoldiers` here because `assigned` is a Dafny keyword.
 */
module Entities {
  import opened Wrappers

  class Task {
    var id: int
    var name: string
    var description: string
    var reason: string
    var location: string
    var created: string
    var start: string
    var end: string
    var assignedSoldiers: Option<set<Soldier>>

    /** A new task: the given column values and an empty `assigned` set. */
    constructor (id: int, name: string, description: string, reason: string, location: string,
                 created: string, start: string, end: string)
      ensures this.id == id && this.name == name && this.description == description
      ensures this.reason == reason && this.location == location && this.created == created
      ensures this.start == start && this.end == end
      ensures assignedSoldiers == Some({})
    {
      this.id, this.name, this.description, this.reason := id, name, description, reason;
      this.location, this.created, this.start, this.end := location, created, start, end;
      assignedSoldiers := Some({});
    }

    function GetId(): int reads this`id { id }
    function GetName(): string reads this`name { name }
    function GetDescription(): string reads this`description { description }
    function GetReason(): string reads this`reason { reason }
    function GetLocation(): string reads this`location { location }
    function GetCreated(): string reads this`created { created }
    function GetStart(): string reads this`start { start }
    function GetEnd(): string reads this`end { end }

    method SetId(v: int) modifies this`id ensures GetId() == v { id := v; }
    method SetName(v: string) modifies this`name ensures GetName() == v { name := v; }
    method SetDescription(v: string) modifies this`description ensures GetDescription() == v { description := v; }
    method SetReason(v: string) modifies this`reason ensures GetReason() == v { reason := v; }
    method SetLocation(v: string) modifies this`location ensures GetLocation() == v { location := v; }
    method SetCreated(v: string) modifies this`created ensures GetCreated() == v { created := v; }
    method SetStart(v: string) modifies this`start ensures GetStart() == v { start := v; }
    method SetEnd(v: string) modifies this`end ensures GetEnd() == v { end := v; }

    /** `setAssigned` stores its argument as-is, null included. */
    method SetAssigned(v: Option<set<Soldier>>)
      modifies this`assignedSoldiers
      ensures assignedSoldiers == v
    {
      assignedSoldiers := v;
    }

    /** The set `getAssigned` hands out: the stored set, or the empty set while the field is null. */
    function AssignedSet(): set<Soldier>
      reads this`assignedSoldiers
    {
      if assignedSoldiers.Some? then assignedSoldiers.value else {}
    }

    /**
     * `getAssigned` never returns null: a null field is replaced by a fresh empty
     * set, which is stored and returned; a non-null field is returned unchanged.
     */
    method GetAssigned() returns (s: set<Soldier>)
      modifies this`assignedSoldiers
      ensures s == old(AssignedSet())
      ensures assignedSoldiers == Some(s)
      ensures old(assignedSoldiers).Some? ==> assignedSoldiers == old(assignedSoldiers)
    {
      if assignedSoldiers.None? {
        assignedSoldiers := Some({});
      }
      s := assignedSoldiers.value;
    }
  }

  class Soldier {
    var id: int
    var firstName: string
    var lastName: string
    var rank: string
    var squad: string
    var team: string
    var role: string
    var tasks: set<Task>

    /** A new soldier: the given column values and an empty `tasks` set. */
    constructor (id: int, firstName: string, lastName: string, rank: string, squad: string,
                 team: string, role: string)
      ensures this.id == id && this.firstName == firstName && this.lastName == lastName
      ensures this.rank == rank && this.squad == squad && this.team == team && this.role == role
      ensures tasks == {}
    {
      this.id, this.firstName, this.lastName, this.rank := id, firstName, lastName, rank;
      this.squad, this.team, this.role := squad, team, role;
      tasks := {};
    }

    function GetId(): int reads this`id { id }
    function GetFirstName(): string reads this`firstName { firstName }
    function GetLastName(): string reads this`lastName { lastName }
    function GetRank(): string reads this`rank { rank }
    function GetSquad(): string reads this`squad { squad }
    function GetTeam(): string reads this`team { team }
    function GetRole(): string reads this`role { role }
    /** `getTasks` returns the stored set as-is; there is no lazy replacement as in Task. */
    function GetTasks(): set<Task> reads this`tasks { tasks }

    method SetId(v: int) modifies this`id ensures GetId() == v { id := v; }
    method SetFirstName(v: string) modifies this`firstName ensures GetFirstName() == v { firstName := v; }
    method SetLastName(v: string) modifies this`lastName ensures GetLastName() == v { lastName := v; }
    method SetRank(v: string) modifies this`rank ensures GetRank() == v { rank := v; }
    method SetSquad(v: string) modifies this`squad ensures GetSquad() == v { squad := v; }
    method SetTeam(v: string) modifies this`team ensures GetTeam() == v { team := v; }
    method SetRole(v: string) modifies this`role ensures GetRole() == v { role := v; }
    method SetTasks(v: set<Task>) modifies this`tasks ensures GetTasks() == v { tasks := v; }
  }

  /**
   * The intended inverse relation between the two sides of the mapping:
   * a task is in a soldier's `tasks` exactly when the soldier is in the task's `assigned`.
   */
  ghost predicate Mirrored(tasks: set<Task>, soldiers: set<Soldier>)
    reads tasks, soldiers
  {
    forall t, s :: t in tasks && s in soldiers ==> (t in s.tasks <==> s in t.AssignedSet())
  }
}

=== FILE: lists.dfy ===
/**
 * The two list updates the client pages apply to their state arrays after a server reply:
 * `prev.filter(x => x.id !== id)` and `prev.map(x => x.id === y.id ? y : x)`. Ids are
 * optional (`undefined` is `None`), and `===` on them is equality of the options.
 */
module ListUpdates {
  import opened Wrappers

  /** `xs.filter(x => key(x) !== id)`. */
  function RemoveKey<T>(xs: seq<T>, key: T -> Option<int>, id: Option<int>): (r: seq<T>)
    ensures |r| <= |xs|
    ensures forall i :: 0 <= i < |r| ==> key(r[i]) != id
  {
    if xs == [] then []
    else (if key(xs[0]) != id then [xs[0]] else []) + RemoveKey(xs[1..], key, id)
  }

  /** The filter keeps exactly the elements whose id differs. */
  lemma {:induction false} RemoveKeyMembers<T>(xs: seq<T>, key: T -> Option<int>, id: Option<int>, x: T)
    ensures x in RemoveKey(xs, key, id) <==> x in xs && key(x) != id
  {
    if xs != [] {
      RemoveKeyMembers(xs[1..], key, id, x);
      assert xs == [xs[0]] + xs[1..];
    }
  }

  /** The filter keeps the original order: it distributes over concatenation. */
  lemma {:induction false} RemoveKeyAppend<T>(a: seq<T>, b: seq<T>, key: T -> Option<int>, id: Option<int>)
    ensures RemoveKey(a + b, key, id) == RemoveKey(a, key, id) + RemoveKey(b, key, id)
  {
    if a == [] {
      assert a + b == b;
    } else {
      assert (a + b)[1..] == a[1..] + b;
      RemoveKeyAppend(a[1..], b, key, id);
    }
  }

  /** A list with no element of that id is left as it is, so deleting twice is deleting once. */
  lemma {:induction false} RemoveKeyIdempotent<T>(xs: seq<T>, key: T -> Option<int>, id: Option<int>)
    ensures RemoveKey(RemoveKey(xs, key, id), key, id) == RemoveKey(xs, key, id)
  {
    if xs != [] {
      RemoveKeyIdempotent(xs[1..], key, id);
      var rest := RemoveKey(xs[1..], key, id);
      if key(xs[0]) != id {
        assert ([xs[0]] + rest)[1..] == rest;
      } else {
        assert [] + rest == rest;
      }
    }
  }

  /** `xs.map(x => key(x) === key(y) ? y : x)`. */
  function ReplaceKey<T>(xs: seq<T>, key: T -> Option<int>, y: T): (r: seq<T>)
    ensures |r| == |xs|
  {
    if xs == [] then []
    else [if key(xs[0]) == key(y) then y else xs[0]] + ReplaceKey(xs[1..], key, y)
  }

  /** Every element with the edited id becomes the edited value; every other element stays where it was. */
  lemma {:induction false} ReplaceKeyAt<T>(xs: seq<T>, key: T -> Option<int>, y: T, i: int)
    requires 0 <= i < |xs|
    ensures ReplaceKey(xs, key, y)[i] == if key(xs[i]) == key(y) then y else xs[i]
  {
    if i > 0 {
      ReplaceKeyAt(xs[1..], key, y, i - 1);
    }
  }

  /**
   * The reply to a create request: a non-ok status, a body holding the created record, an
   * empty body followed by a refetch of the whole list (`None` when that refetch threw),
   * or a request that threw.
   */
  datatype AddReply<T> = AddRefused | Created(item: T) | EmptyBody(refetched: Option<seq<T>>) | AddUnreachable
}

=== FILE: platoon_page.dfy ===
/**
 * The roster page's list of soldiers and how each server reply changes it: the initial
 * fetch, a new soldier, an edited soldier and a deletion.
 */
module PlatoonPage {
  import opened Wrappers
  import opened ClientTypes
  import opened ListUpdates

  function SoldierId(s: SoldierRecord): Option<int> {
    s.id
  }

  /** The reply to an edit: a non-ok status, an ok status with its body text, or a request that threw. */
  datatype EditReply = EditRefused | EditBody(text: string) | EditUnreachable

  class Platoon {
    var soldiers: seq<SoldierRecord>
    var loading: bool

    constructor ()
      ensures soldiers == [] && loading
    {
      soldiers := [];
      loading := true;
    }

    /** The mount fetch once the reply is in: a parsed list replaces the roster; loading ends either way. */
    method FetchSoldiers(reply: Option<seq<SoldierRecord>>)
      modifies this`soldiers, this`loading
      ensures soldiers == if reply.Some? then reply.value else old(soldiers)
      ensures !loading
    {
      if reply.Some? {
        soldiers := reply.value;
      }
      loading := false;
    }

    /**
     * `handleAddSoldier`: with a user and an ok reply, the created soldier goes at the end
     * (the others keep their places), or an empty body replaces the list by a refetch.
     */
    method HandleAddSoldier(hasUser: bool, reply: AddReply<SoldierRecord>)
      modifies this`soldiers
      ensures !hasUser || reply == AddRefused || reply == AddUnreachable ==> soldiers == old(soldiers)
      ensures hasUser && reply.Created? ==>
                |soldiers| == |old(soldiers)| + 1 && soldiers[..|old(soldiers)|] == old(soldiers)
                && soldiers[|old(soldiers)|] == reply.item
      ensures hasUser && reply.EmptyBody? ==>
                soldiers == if reply.refetched.Some? then reply.refetched.value else old(soldiers)
    {
      if !hasUser {
        return;
      }
      match reply
      case AddRefused =>
      case AddUnreachable =>
      case Created(item) =>
        soldiers := soldiers + [item];
      case EmptyBody(refetched) =>
        if refetched.Some? {
          soldiers := refetched.value;
        }
    }

    /**
     * `handleEdit`: posts the edited soldier's seven fields; with a user and an ok, non-empty
     * reply every soldier with the edited id is replaced by it, in place.
     */
    method HandleEdit(hasUser: bool, newSoldier: SoldierRecord, reply: EditReply) returns (posted: Option<SoldierRecord>)
      modifies this`soldiers
      ensures posted == if hasUser then Some(newSoldier) else None
      ensures |soldiers| == |old(soldiers)|
      ensures hasUser && reply.EditBody? && reply.text != "" ==>
                forall i :: 0 <= i < |soldiers| ==>
                  soldiers[i] == if old(soldiers)[i].id == newSoldier.id then newSoldier else old(soldiers)[i]
      ensures !(hasUser && reply.EditBody? && reply.text != "") ==> soldiers == old(soldiers)
    {
      if !hasUser {
        return None;
      }
      var soldierToUpdate := SoldierRecord(newSoldier.id, newSoldier.firstName, newSoldier.lastName,
                                           newSoldier.rank, newSoldier.squad, newSoldier.team, newSoldier.role);
      posted := Some(soldierToUpdate);
      if reply.EditBody? && reply.text != "" {
        var before := soldiers;
        soldiers := ReplaceKey(soldiers, SoldierId, newSoldier);
        forall i | 0 <= i < |soldiers|
          ensures soldiers[i] == if before[i].id == newSoldier.id then newSoldier else before[i]
        {
          ReplaceKeyAt(before, SoldierId, newSoldier, i);
        }
      }
    }

    /** A card's `onDelete`: the soldiers whose id differs stay, in their order. */
    method Delete(id: Option<int>)
      modifies this`soldiers
      ensures soldiers == RemoveKey(old(soldiers), SoldierId, id)
      ensures forall s :: s in soldiers <==> s in old(soldiers) && s.id != id
    {
      var before := soldiers;
      soldiers := RemoveKey(soldiers, SoldierId, id);
      forall s
        ensures s in soldiers <==> s in before && s.id != id
      {
        RemoveKeyMembers(before, SoldierId, id, s);
      }
    }
  }
}

=== FILE: profile_controller.dfy ===
/**
 * The account endpoints: registration, profile lookup by id, the username check, and login
 * with its in-memory session table (`sessions`, session id to profile), which `me` reads.
 *
 * HTTP statuses are the error side of a `Result`. The password check and the session id
 * generator are parameters: `matches` stands for the encoder's comparison, `freshSessionId`
 * for a random UUID, assumed unused.
 */
module ProfileController {
  import opened Wrappers
  import opened ProfileService

  const Unauthorized := 401
  const NotFound := 404

  /** The login response body. */
  datatype LoginResponse = LoginResponse(sessionId: string, username: string, userId: Option<int>)

  /** The registration response body. */
  datatype SaveResponse = SaveResponse(message: string, userId: Option<int>, username: string)

  /** Every entry of the old table is still there, unchanged. */
  ghost predicate Grown(before: map<string, Profile>, after: map<string, Profile>) {
    forall k :: k in before ==> k in after && after[k] == before[k]
  }

  class Accounts {
    const profileService: Profiles
    var sessions: map<string, Profile>

    constructor (profileService: Profiles)
      ensures this.profileService == profileService && sessions == map[]
    {
      this.profileService := profileService;
      sessions := map[];
    }

    /** `saveNewUser`: registers the profile and reports its new id and name. */
    method SaveNewUser(profile: Profile, encode: string -> string, freshId: int) returns (r: SaveResponse)
      requires profileService.Valid() && freshId !in profileService.repo
      modifies profile, profileService`repo
      ensures profileService.Valid() && profile.id.Some? && profileService.repo == old(profileService.repo)[profile.id.value := profile]
      ensures r == SaveResponse("User created successfully", profile.id, profile.username)
      ensures profile.username == old(profile.username)
      ensures profile.password == encode(old(profile.password))
      ensures profile.role == if old(profile.role).None? then Some(USER) else old(profile.role)
    {
      var saved := profileService.RegisterUser(profile, encode, freshId);
      r := SaveResponse("User created successfully", saved.id, saved.username);
    }

    /** `getProfile`: the stored profile, or 404. */
    method GetProfile(profileId: int) returns (r: Result<Profile, int>)
      ensures profileId in profileService.repo ==> r == Ok(profileService.repo[profileId])
      ensures profileId !in profileService.repo ==> r == Err(NotFound)
    {
      var profile := profileService.FindById(profileId);
      if profile.None? {
        return Err(NotFound);
      }
      return Ok(profile.value);
    }

    /** `findUser`: whether the name is taken. */
    method FindUser(username: string) returns (taken: bool)
      ensures taken <==> profileService.Named(username)
    {
      taken := profileService.ExistsByUsername(username);
    }

    /**
     * `login`: with a stored profile of that name whose password matches, a new session maps
     * the fresh id to it; otherwise 401 and the table is untouched. `found` is the profile the
     * name lookup returned.
     */
    method Login(username: string, password: string, matches: (string, string) -> bool, freshSessionId: string)
      returns (r: Result<LoginResponse, int>, ghost found: Option<Profile>)
      requires freshSessionId !in sessions
      modifies this`sessions
      ensures found.Some? <==> profileService.Named(username)
      ensures found.Some? ==> found.value in profileService.repo.Values && found.value.username == username
      ensures r.Ok? <==> found.Some? && matches(password, found.value.password)
      ensures r.Err? ==> r.error == Unauthorized && sessions == old(sessions)
      ensures r.Ok? ==>
                sessions == old(sessions)[freshSessionId := found.value]
                && r.value == LoginResponse(freshSessionId, found.value.username, found.value.id)
      ensures Grown(old(sessions), sessions)
    {
      var profile := profileService.FindProfileByName(username);
      found := profile;
      if profile.None? || !matches(password, profile.value.password) {
        return Err(Unauthorized), found;
      }
      sessions := sessions[freshSessionId := profile.value];
      return Ok(LoginResponse(freshSessionId, profile.value.username, profile.value.id)), found;
    }

    /** `me`: the profile of a known session, or 401. */
    method Me(sessionId: string) returns (r: Result<Profile, int>)
      ensures sessionId in sessions ==> r == Ok(sessions[sessionId])
      ensures sessionId !in sessions ==> r == Err(Unauthorized)
    {
      if sessionId !in sessions {
        return Err(Unauthorized);
      }
      return Ok(sessions[sessionId]);
    }
  }

  /** A session created by a login is recognised by `me` for as long as the table lives, since nothing removes entries. */
  lemma SessionsPersist(a: map<string, Profile>, b: map<string, Profile>, c: map<string, Profile>, sessionId: string)
    requires Grown(a, b) && Grown(b, c) && sessionId in a
    ensures sessionId in c && c[sessionId] == a[sessionId]
    ensures Grown(a, c)
  {
  }
}

=== FILE: profile_service.dfy ===
/**
 * User accounts: registration (a default role and the encoded password) and the lookups by
 * name and by id, over a repository kept as a map from id to profile.
 *
 * The `Profile` entity and the `Role` enumeration are not part of this model's sources; the
 * class below holds the four properties the services read and write. The password encoder
 * is an abstract function, and so is the id the database generates on insert.
 */
module ProfileService {
  import opened Wrappers

  datatype Role = USER | ADMIN

  class Profile {
    var id: Option<int>
    var username: string
    var password: string
    var role: Option<Role>

    constructor (username: string, password: string, role: Option<Role>)
      ensures this.id == None && this.username == username && this.password == password && this.role == role
    {
      this.id := None;
      this.username := username;
      this.password := password;
      this.role := role;
    }
  }

  class Profiles {
    var repo: map<int, Profile>

    /** Every stored profile carries the id it is stored under. */
    ghost predicate Valid()
      reads this, repo.Values
    {
      forall i :: i in repo ==> repo[i].id == Some(i)
    }

    constructor ()
      ensures repo == map[] && Valid()
    {
      repo := map[];
    }

    /** Some stored profile has this user name. */
    ghost predicate Named(username: string)
      reads this, repo.Values
    {
      exists i :: i in repo && repo[i].username == username
    }

    /**
     * `registerUser`: a missing role becomes USER, a given one is kept; the password is
     * replaced by its encoding; `save` stores the profile under its id, taking `freshId`
     * when it has none. A profile that arrives with the id of a stored one replaces it.
     */
    method RegisterUser(profile: Profile, encode: string -> string, freshId: int) returns (saved: Profile)
      requires Valid() && freshId !in repo
      modifies profile, this`repo
      ensures saved == profile
      ensures profile.role == if old(profile.role).None? then Some(USER) else old(profile.role)
      ensures profile.password == encode(old(profile.password))
      ensures profile.username == old(profile.username)
      ensures profile.id == if old(profile.id).None? then Some(freshId) else old(profile.id)
      ensures repo == old(repo)[profile.id.value := profile]
      ensures Valid()
    {
      if profile.role.None? {
        profile.role := Some(USER);
      }
      profile.password := encode(profile.password);
      if profile.id.None? {
        profile.id := Some(freshId);
      }
      repo := repo[profile.id.value := profile];
      saved := profile;
    }

    /** `findProfileByName`: a stored profile with that name, or null. */
    method FindProfileByName(username: string) returns (r: Option<Profile>)
      ensures r.Some? <==> Named(username)
      ensures r.Some? ==> r.value in repo.Values && r.value.username == username
    {
      var matching := set i | i in repo && repo[i].username == username;
      if matching == {} {
        assert forall i :: i in repo && repo[i].username == username ==> i in matching;
        return None;
      }
      ghost var w := Witness(matching);
      var i :| i in matching;
      return Some(repo[i]);
    }

    /** `existsByUsername`. */
    method ExistsByUsername(username: string) returns (b: bool)
      ensures b <==> Named(username)
    {
      var r := FindProfileByName(username);
      b := r.Some?;
    }

    /** `findById`: the profile stored under `id`, or null. */
    method FindById(id: int) returns (r: Option<Profile>)
      ensures r == Get(repo, id)
      ensures r.Some? ==> r.value in repo.Values
    {
      r := Get(repo, id);
    }
  }
}

=== FILE: signup_page.dfy ===
/**
 * The sign-up form: the username check that runs on every change of the username, and the
 * submit that registers the account (as an administrator when the code matches) and then
 * signs the new user in.
 */
module SignupPage {
  import opened Wrappers
  import opened AuthProvider

  /** The sign-up code that asks for the administrator role. */
  const AdminCode := "hooligans"

  const TakenFeedback := "Username is taken"
  const AvailableFeedback := "Username is available"
  const LookupErrorFeedback := "Error checking username"
  const SuccessFeedback := "Sign up successful!"

  /** The characters `String.prototype.trim` removes: ECMA-262 WhiteSpace and LineTerminator. */
  predicate IsJsWhitespace(c: char) {
    c == '\t' || c == '\n' || c == '\U{000B}' || c == '\U{000C}' || c == '\r' || c == ' '
    || c == '\U{00A0}' || c == '\U{1680}' || ('\U{2000}' <= c <= '\U{200A}')
    || c == '\U{2028}' || c == '\U{2029}' || c == '\U{202F}' || c == '\U{205F}'
    || c == '\U{3000}' || c == '\U{FEFF}'
  }

  /** `!username.trim()`: empty once surrounding whitespace is removed. */
  predicate Blank(s: string) {
    forall i :: 0 <= i < |s| ==> IsJsWhitespace(s[i])
  }

  /** How the availability lookup came back: `data.exists` true, false, or the request or its JSON failed. */
  datatype Lookup = Taken | Available | LookupFailed

  /** The feedback line `validateForm` leaves. */
  function Feedback(username: string, lookup: Lookup): (r: string)
    ensures r == "" <==> Blank(username)
    ensures r == AvailableFeedback <==> !Blank(username) && lookup == Available
    ensures r == TakenFeedback <==> !Blank(username) && lookup == Taken
  {
    if Blank(username) then ""
    else match lookup
      case Taken => TakenFeedback
      case Available => AvailableFeedback
      case LookupFailed => LookupErrorFeedback
  }

  /** `isValid` as `validateForm` leaves it: the last write, `setIsValid(true)`, follows every non-blank branch. */
  function ValidityAsWritten(username: string, lookup: Lookup): (r: bool)
    ensures r <==> Feedback(username, lookup) != ""
  {
    !Blank(username)
  }

  /** `isValid` as the feedback messages mean it: only an available, non-blank name may be submitted. */
  function IntendedValidity(username: string, lookup: Lookup): (r: bool)
    ensures r ==> ValidityAsWritten(username, lookup)
    ensures r <==> Feedback(username, lookup) == AvailableFeedback
  {
    !Blank(username) && lookup == Available
  }

  /** As written, any non-blank name reported as taken, or whose check failed, still enables submission. */
  lemma TakenNameIsAccepted(username: string)
    requires !Blank(username)
    ensures Feedback(username, Taken) == TakenFeedback && ValidityAsWritten(username, Taken)
    ensures Feedback(username, LookupFailed) == LookupErrorFeedback && ValidityAsWritten(username, LookupFailed)
    ensures !IntendedValidity(username, Taken) && !IntendedValidity(username, LookupFailed)
  {
  }

  /** A concrete name showing the discrepancy. */
  lemma AliceIsAccepted()
    ensures ValidityAsWritten("alice", Taken) && !IntendedValidity("alice", Taken)
  {
    assert !IsJsWhitespace("alice"[0]);
  }

  /** The intended rule: the form is valid exactly when the feedback says the name is available. */
  lemma IntendedValidityMatchesFeedback(username: string, lookup: Lookup)
    ensures IntendedValidity(username, lookup) <==> Feedback(username, lookup) == AvailableFeedback
    ensures IntendedValidity(username, lookup) ==> ValidityAsWritten(username, lookup)
  {
  }

  /** The body posted to the registration endpoint; `role` is absent unless the admin code was given. */
  datatype SignupRequest = SignupRequest(username: string, password: string, role: Option<string>)

  /** The role sent for a sign-up code. */
  function RequestedRole(code: string): Option<string> {
    if code == AdminCode then Some("ADMIN") else None
  }

  /** Only the exact code asks for a role, and the role asked for is always ADMIN. */
  lemma RoleOnlyForAdminCode(code: string)
    ensures RequestedRole(code).Some? <==> code == AdminCode
    ensures RequestedRole(code).Some? ==> RequestedRole(code).value == "ADMIN"
  {
  }

  /** A reply to a POST: an ok status, a non-ok status, or a fetch that threw. */
  datatype Reply = Accepted | Refused | Unreachable

  /** The login reply: ok with its session and user ids, or not. */
  datatype LoginReply = LoginOk(sessionId: string, userId: string) | LoginNotOk | LoginFailed

  /** How far a submit got. */
  datatype Outcome = NotSent | SignupRefused | SignedUp | SignedUpAndLoggedIn

  class SignupForm {
    var username: string
    var password: string
    var code: string
    var feedback: string
    var isValid: bool

    constructor ()
      ensures username == "" && password == "" && code == "" && feedback == "" && !isValid
    {
      username, password, code, feedback, isValid := "", "", "", "", false;
    }

    /**
     * `validateForm` with the lookup's result as a parameter. The feedback follows the lookup,
     * but every non-blank name ends valid (see `TakenNameIsAccepted`).
     */
    method ValidateForm(lookup: Lookup)
      modifies this`feedback, this`isValid
      ensures feedback == Feedback(username, lookup)
      ensures isValid == ValidityAsWritten(username, lookup)
      ensures Blank(username) ==> feedback == "" && !isValid
    {
      if Blank(username) {
        feedback := "";
        isValid := false;
        return;
      } else {
        match lookup
        case Taken =>
          feedback := TakenFeedback;
          isValid := false;
        case Available =>
          feedback := AvailableFeedback;
        case LookupFailed =>
          feedback := LookupErrorFeedback;
          isValid := false;
      }
      isValid := true;
    }

    /**
     * `handleSubmit` with the two replies as parameters. Nothing is sent while the form is
     * invalid; a refused sign-up stops before any field changes; an accepted one clears the
     * name and password, and the login that follows still sends the values typed.
     */
    method HandleSubmit(auth: Auth, signupReply: Reply, loginReply: LoginReply)
      returns (outcome: Outcome, signup: Option<SignupRequest>, login: Option<(string, string)>)
      modifies this`username, this`password, this`feedback, auth
      ensures !old(isValid) ==> outcome == NotSent && signup == None
      ensures old(isValid) ==> signup == Some(SignupRequest(old(username), old(password), RequestedRole(code)))
      ensures outcome == NotSent || outcome == SignupRefused ==>
                username == old(username) && password == old(password) && feedback == old(feedback) && login == None
      ensures outcome == SignupRefused <==> old(isValid) && signupReply != Accepted
      ensures outcome == SignedUp || outcome == SignedUpAndLoggedIn ==>
                username == "" && password == "" && feedback == SuccessFeedback
                && login == Some((old(username), old(password)))
      ensures outcome == SignedUpAndLoggedIn <==> old(isValid) && signupReply == Accepted && loginReply.LoginOk?
      ensures outcome == SignedUpAndLoggedIn ==>
                auth.storage == SignedIn(old(auth.storage), loginReply.sessionId, loginReply.userId)
                && auth.isLoggedIn && auth.userId == Some(loginReply.userId)
      ensures outcome != SignedUpAndLoggedIn ==>
                auth.storage == old(auth.storage) && auth.isLoggedIn == old(auth.isLoggedIn) && auth.userId == old(auth.userId)
    {
      login := None;
      if !isValid {
        return NotSent, None, None;
      }
      var typedName, typedPassword := username, password;
      signup := Some(SignupRequest(typedName, typedPassword, RequestedRole(code)));
      if signupReply != Accepted {
        return SignupRefused, signup, login;
      }
      username := "";
      password := "";
      feedback := SuccessFeedback;
      login := Some((typedName, typedPassword));
      if !loginReply.LoginOk? {
        return SignedUp, signup, login;
      }
      auth.Login(loginReply.sessionId, loginReply.userId);
      outcome := SignedUpAndLoggedIn;
    }
  }
}

=== FILE: soldier_add.dfy ===
/**
 * The soldier form dialog: a record of six text fields, a change handler per input, a
 * reset, and a submit that requires the first four fields and hands the record on.
 */
module SoldierAdd {
  import opened Wrappers
  import opened ClientTypes

  /** `initialSoldierSet`: six empty fields, no id. */
  const InitialSoldier := SoldierRecord(None, "", "", "", "", "", "")

  /** The inputs `handleChange` is wired to, by their `name` attribute. */
  datatype SoldierField = FirstName | LastName | Rank | Squad | Team | Role

  function Field(s: SoldierRecord, f: SoldierField): string {
    match f
    case FirstName => s.firstName
    case LastName => s.lastName
    case Rank => s.rank
    case Squad => s.squad
    case Team => s.team
    case Role => s.role
  }

  /** `{...prev, [name]: value}`. */
  function WithField(s: SoldierRecord, f: SoldierField, value: string): SoldierRecord {
    match f
    case FirstName => s.(firstName := value)
    case LastName => s.(lastName := value)
    case Rank => s.(rank := value)
    case Squad => s.(squad := value)
    case Team => s.(team := value)
    case Role => s.(role := value)
  }

  /** A change reads back as the value typed and leaves the id and every other field as they were. */
  lemma ChangeOnlyNamedField(s: SoldierRecord, f: SoldierField, value: string)
    ensures forall g :: Field(WithField(s, f, value), g) == if g == f then value else Field(s, g)
    ensures WithField(s, f, value).id == s.id
  {
  }

  /** The reset record has all six fields empty. */
  lemma InitialIsEmpty()
    ensures forall f :: Field(InitialSoldier, f) == ""
  {
  }

  /** `handleSubmit`'s check: first name, last name, rank and squad are required; team and role are not. */
  predicate Complete(s: SoldierRecord) {
    s.firstName != "" && s.lastName != "" && s.rank != "" && s.squad != ""
  }

  /** Exactly the required fields decide: a complete record stays complete whatever team and role say. */
  lemma OnlyRequiredFieldsMatter(s: SoldierRecord, f: SoldierField, value: string)
    requires f == Team || f == Role
    ensures Complete(WithField(s, f, value)) <==> Complete(s)
  {
  }

  class SoldierForm {
    var soldierData: SoldierRecord
    var open: bool

    /** Editing starts from `currentSoldier`; adding starts from the empty record. */
    constructor (currentSoldier: Option<SoldierRecord>)
      ensures soldierData == if currentSoldier.Some? then currentSoldier.value else InitialSoldier
      ensures !open
    {
      soldierData := if currentSoldier.Some? then currentSoldier.value else InitialSoldier;
      open := false;
    }

    /** `handleChange` for the input named `f`. */
    method HandleChange(f: SoldierField, value: string)
      modifies this`soldierData
      ensures soldierData == WithField(old(soldierData), f, value)
      ensures Field(soldierData, f) == value
      ensures forall g :: g != f ==> Field(soldierData, g) == Field(old(soldierData), g)
    {
      ChangeOnlyNamedField(soldierData, f, value);
      soldierData := WithField(soldierData, f, value);
    }

    /** `onOpenChange` from the dialog itself (the trigger button or the close mark). */
    method SetOpen(b: bool)
      modifies this`open
      ensures open == b
    {
      open := b;
    }

    /** `handleReset`. */
    method HandleReset()
      modifies this`soldierData
      ensures soldierData == InitialSoldier
    {
      soldierData := InitialSoldier;
    }

    /**
     * `handleSubmit`: an incomplete record only raises an alert; a complete one is handed to
     * `onSubmit` (returned here), then the form resets and closes.
     */
    method HandleSubmit() returns (submitted: Option<SoldierRecord>)
      modifies this`soldierData, this`open
      ensures submitted.Some? <==> Complete(old(soldierData))
      ensures submitted.Some? ==> submitted.value == old(soldierData) && soldierData == InitialSoldier && !open
      ensures submitted.None? ==> soldierData == old(soldierData) && open == old(open)
    {
      if !Complete(soldierData) {
        return None;
      }
      submitted := Some(soldierData);
      open := false;
      soldierData := InitialSoldier;
    }
  }
}

=== FILE: soldier_controller.dfy ===
/**
 * The two query endpoints of SoldierController that sit on the conflict engine.
 *
 * `getAvailableSoldiers` walks the roster in order and, for each soldier, every task
 * (skipping the one whose id is `excludeTaskId`), keeps a soldier none of whose tasks
 * overlaps the window and returns their public fields. `checkConflict` asks the service
 * whether one soldier conflicts and, when it does, lists every overlapping task.
 * Any exception inside either handler becomes a 400 reply `{"error": message}`,
 * modelled as `Err(message)`.
 */
module SoldierController {
  import opened Wrappers
  import opened TimeOverlap
  import opened Entities
  import opened SoldierService

  /** The record of one listed soldier: exactly the keys id, firstName, lastName, rank, squad, team, role. */
  datatype SoldierInfo = SoldierInfo(id: int, firstName: string, lastName: string, rank: string,
                                     squad: string, team: string, role: string)

  function Info(s: Soldier): SoldierInfo
    reads s
  {
    SoldierInfo(s.id, s.firstName, s.lastName, s.rank, s.squad, s.team, s.role)
  }

  /** A task takes part in the availability test unless its id is the excluded one. */
  predicate Counted(t: Task, exclude: Option<int>)
    reads t`id
  {
    !(exclude.Some? && t.id == exclude.value)
  }

  /** Every counted task of `s` compares without error and none overlaps the window. */
  ghost predicate Free(s: Soldier, start: string, end: string, exclude: Option<int>, parse: Parser)
    reads s, s.tasks
  {
    forall t :: t in s.tasks && Counted(t, exclude) ==> Compare(t, start, end, parse) == Ok(false)
  }

  /** Every counted task of `s` compares without a parse error. */
  ghost predicate Comparable(s: Soldier, start: string, end: string, exclude: Option<int>, parse: Parser)
    reads s, s.tasks
  {
    forall t :: t in s.tasks && Counted(t, exclude) ==> Compare(t, start, end, parse).Ok?
  }

  /** The reply of `getAvailableSoldiers` when nothing fails: the free soldiers' records, in roster order. */
  ghost function Available(roster: seq<Soldier>, start: string, end: string, exclude: Option<int>, parse: Parser): seq<SoldierInfo>
    reads roster, set s, t | s in roster && t in s.tasks :: t
  {
    if roster == [] then []
    else
      var last := roster[|roster| - 1];
      assert roster[..|roster| - 1] + [last] == roster;
      Available(roster[..|roster| - 1], start, end, exclude, parse)
        + (if Free(last, start, end, exclude, parse) then [Info(last)] else [])
  }

  /**
   * `getAvailableSoldiers(taskStart, taskEnd, excludeTaskId)` over the roster `findAll` returns.
   * It succeeds exactly when every counted comparison parses, and then returns the records of
   * the free soldiers in roster order; otherwise the error is one a comparison raised.
   */
  method GetAvailableSoldiers(roster: seq<Soldier>, taskStart: string, taskEnd: string,
                              exclude: Option<int>, parse: Parser)
    returns (r: Result<seq<SoldierInfo>, string>)
    ensures r.Ok? <==> forall s :: s in roster ==> Comparable(s, taskStart, taskEnd, exclude, parse)
    ensures r.Ok? ==> r.value == Available(roster, taskStart, taskEnd, exclude, parse)
    ensures r.Err? ==>
      exists s, t :: s in roster && t in s.tasks && Counted(t, exclude)
                     && Compare(t, taskStart, taskEnd, parse) == Err(r.error)
  {
    var availableSoldiers: seq<SoldierInfo> := [];
    for i := 0 to |roster|
      invariant forall j :: 0 <= j < i ==> Comparable(roster[j], taskStart, taskEnd, exclude, parse)
      invariant availableSoldiers == Available(roster[..i], taskStart, taskEnd, exclude, parse)
    {
      var soldier := roster[i];
      var hasConflict := false;
      var conflictingTasks: seq<string> := [];
      var remaining := soldier.tasks;
      while remaining != {}
        invariant remaining <= soldier.tasks
        invariant forall t :: t in soldier.tasks - remaining && Counted(t, exclude) ==>
                    Compare(t, taskStart, taskEnd, parse).Ok?
        invariant hasConflict <==>
                    exists t :: t in soldier.tasks - remaining && Counted(t, exclude)
                                && Compare(t, taskStart, taskEnd, parse) == Ok(true)
        decreases remaining
      {
        var task :| task in remaining;
        remaining := remaining - {task};
        // skip the current task when editing
        if !Counted(task, exclude) {
          continue;
        }
        var overlap := Compare(task, taskStart, taskEnd, parse);
        if overlap.Err? {
          assert soldier in roster && task in soldier.tasks;
          assert !Comparable(soldier, taskStart, taskEnd, exclude, parse);
          return Err(overlap.error);
        }
        if overlap.value {
          hasConflict := true;
          conflictingTasks := conflictingTasks + [task.GetName()];
        }
      }
      assert soldier.tasks - remaining == soldier.tasks;
      assert roster[..i + 1][..i] == roster[..i];
      if !hasConflict {
        availableSoldiers := availableSoldiers + [Info(soldier)];
      }
    }
    assert roster[..|roster|] == roster;
    return Ok(availableSoldiers);
  }

  /** One more soldier of the roster adds their record exactly when they are free. */
  lemma AvailableStep(roster: seq<Soldier>, i: int, start: string, end: string, exclude: Option<int>, parse: Parser)
    requires 0 <= i < |roster|
    ensures Available(roster[..i + 1], start, end, exclude, parse)
            == Available(roster[..i], start, end, exclude, parse)
               + (if Free(roster[i], start, end, exclude, parse) then [Info(roster[i])] else [])
  {
    assert roster[..i + 1][..i] == roster[..i];
  }

  /** Splitting the roster splits the reply: the filter keeps roster order. */
  lemma {:induction false} AvailableAppend(a: seq<Soldier>, b: seq<Soldier>, start: string, end: string,
                                           exclude: Option<int>, parse: Parser)
    ensures Available(a + b, start, end, exclude, parse)
            == Available(a, start, end, exclude, parse) + Available(b, start, end, exclude, parse)
    decreases |b|
  {
    if b == [] {
      assert a + b == a;
    } else {
      var b' := b[..|b| - 1];
      assert (a + b)[..|a + b| - 1] == a + b';
      AvailableAppend(a, b', start, end, exclude, parse);
    }
  }

  /** A record is in the reply exactly when it is the record of a free soldier of the roster. */
  lemma {:induction false} AvailableMembers(roster: seq<Soldier>, start: string, end: string,
                                            exclude: Option<int>, parse: Parser, x: SoldierInfo)
    ensures x in Available(roster, start, end, exclude, parse)
            <==> exists s :: s in roster && Free(s, start, end, exclude, parse) && x == Info(s)
    decreases |roster|
  {
    if roster != [] {
      var init, last := roster[..|roster| - 1], roster[|roster| - 1];
      assert roster == init + [last];
      AvailableMembers(init, start, end, exclude, parse, x);
      if exists s :: s in roster && Free(s, start, end, exclude, parse) && x == Info(s) {
        var s :| s in roster && Free(s, start, end, exclude, parse) && x == Info(s);
        if s != last {
          assert s in init;
        }
      }
    }
  }

  /** The reply is never longer than the roster. */
  lemma {:induction false} AvailableLength(roster: seq<Soldier>, start: string, end: string,
                                           exclude: Option<int>, parse: Parser)
    ensures |Available(roster, start, end, exclude, parse)| <= |roster|
    decreases |roster|
  {
    if roster != [] {
      AvailableLength(roster[..|roster| - 1], start, end, exclude, parse);
    }
  }

  /** Without an excluded id, being free is exactly `hasConflict` answering false. */
  lemma FreeWithoutExclusion(s: Soldier, start: string, end: string, parse: Parser)
    ensures Free(s, start, end, None, parse) <==> NoConflict(s.tasks, start, end, parse)
  {
    assert forall t :: t in s.tasks ==> Counted(t, None);
  }

  /** A soldier with no counted task is free, whatever the window's strings are. */
  lemma NothingCountedIsFree(s: Soldier, start: string, end: string, exclude: Option<int>, parse: Parser)
    requires forall t :: t in s.tasks ==> !Counted(t, exclude)
    ensures Free(s, start, end, exclude, parse) && Comparable(s, start, end, exclude, parse)
  {
  }

  /** The date formatter (`MMM dd, yyyy HH:mm`) is abstract; an unparseable string is echoed. */
  type Formatter = Instant -> string

  function FormatDateTime(parse: Parser, format: Formatter, s: string): string {
    match parse(s)
    case Some(t) => format(t)
    case None => s
  }

  /** One entry of `conflictingTasks`: `name (start - end)`. */
  function Entry(t: Task, parse: Parser, format: Formatter): string
    reads t`name, t`start, t`end
  {
    t.name + " (" + FormatDateTime(parse, format, t.start) + " - " + FormatDateTime(parse, format, t.end) + ")"
  }

  datatype ConflictReport = ConflictReport(soldierId: int, hasConflict: bool, conflictingTasks: seq<string>)

  /**
   * `checkConflict(id, taskStart, taskEnd)`. An unknown id is "Soldier not found". Otherwise
   * the flag is `hasConflict`'s answer, and when it is true the second pass over the same
   * set lists one entry per overlapping task; that pass parses every task again, so it can
   * still fail. `listed` names the task behind each entry.
   */
  method CheckConflict(soldierRepo: map<int, Soldier>, id: int, taskStart: string, taskEnd: string,
                       parse: Parser, format: Formatter)
    returns (r: Result<ConflictReport, string>, ghost listed: seq<Task>)
    ensures id !in soldierRepo ==> r == Err(SoldierNotFound)
    ensures r.Ok? ==> id in soldierRepo && r.value.soldierId == id
    ensures r.Ok? ==> (r.value.hasConflict <==> !NoConflict(soldierRepo[id].tasks, taskStart, taskEnd, parse))
    ensures r.Ok? && !r.value.hasConflict ==> r.value.conflictingTasks == []
    ensures r.Ok? && r.value.hasConflict ==>
      && |listed| == |r.value.conflictingTasks|
      && (forall k :: 0 <= k < |listed| ==> r.value.conflictingTasks[k] == Entry(listed[k], parse, format))
      && (forall k, l :: 0 <= k < l < |listed| ==> listed[k] != listed[l])
      && (forall t :: t in listed <==> t in soldierRepo[id].tasks && Compare(t, taskStart, taskEnd, parse) == Ok(true))
    ensures r.Err? && id in soldierRepo ==>
      exists t :: t in soldierRepo[id].tasks && Compare(t, taskStart, taskEnd, parse) == Err(r.error)
    ensures id in soldierRepo && AllComparable(soldierRepo[id].tasks, taskStart, taskEnd, parse) ==> r.Ok?
  {
    listed := [];
    if id !in soldierRepo {
      return Err(SoldierNotFound), listed;
    }
    var soldier := soldierRepo[id];
    var hasConflict := HasConflict(soldier, taskStart, taskEnd, parse);
    if hasConflict.Err? {
      return Err(hasConflict.error), listed;
    }
    var conflictingTasks: seq<string> := [];
    if hasConflict.value {
      var remaining := soldier.tasks;
      while remaining != {}
        invariant remaining <= soldier.tasks
        invariant |listed| == |conflictingTasks|
        invariant forall k :: 0 <= k < |listed| ==> conflictingTasks[k] == Entry(listed[k], parse, format)
        invariant forall k, l :: 0 <= k < l < |listed| ==> listed[k] != listed[l]
        invariant forall t :: t in listed ==> t !in remaining
        invariant forall t :: t in listed <==>
                    t in soldier.tasks - remaining && Compare(t, taskStart, taskEnd, parse) == Ok(true)
        decreases remaining
      {
        var task :| task in remaining;
        remaining := remaining - {task};
        var overlap := Compare(task, taskStart, taskEnd, parse);
        if overlap.Err? {
          return Err(overlap.error), listed;
        }
        if overlap.value {
          conflictingTasks := conflictingTasks + [Entry(task, parse, format)];
          listed := listed + [task];
        }
      }
      assert soldier.tasks - remaining == soldier.tasks;
    }
    return Ok(ConflictReport(id, hasConflict.value, conflictingTasks)), listed;
  }
}

=== FILE: soldier_selector.dfy ===
/**
 * The soldier picker of a task card: the availability query it sends, the selection it
 * keeps, and what an assign request or a close does to it.
 *
 * The selection is a JavaScript `Set<number>`, kept here as a sequence in insertion order
 * (the order `Array.from` lists it in) with no repeated id.
 */
module SoldierSelector {
  import opened Wrappers
  import opened ClientTypes

  predicate NoDuplicates(s: seq<int>) {
    forall i, j :: 0 <= i < j < |s| ==> s[i] != s[j]
  }

  /** `Set.delete`: the sequence without `x`, the rest in order. */
  function Without(s: seq<int>, x: int): (r: seq<int>)
    ensures forall y :: y in r <==> y in s && y != x
    ensures NoDuplicates(s) ==> NoDuplicates(r)
  {
    if s == [] then []
    else if s[0] == x then Without(s[1..], x)
    else
      var rest := Without(s[1..], x);
      assert NoDuplicates(s) ==> s[0] !in s[1..] && NoDuplicates(s[1..]) by {
        if NoDuplicates(s) {
          forall i | 0 <= i < |s[1..]| ensures s[1..][i] != s[0] { assert s[1..][i] == s[i + 1]; }
        }
      }
      [s[0]] + rest
  }

  /** `toggleSoldier`'s new set: a copy of the selection with the id removed when present, added at the end otherwise. */
  function Toggle(selected: seq<int>, id: int): (r: seq<int>)
    ensures id in r <==> id !in selected
    ensures forall y :: y != id ==> (y in r <==> y in selected)
    ensures NoDuplicates(selected) ==> NoDuplicates(r)
  {
    if id in selected then Without(selected, id) else selected + [id]
  }

  /** Toggling flips the id's membership and leaves every other id as it was. */
  lemma ToggleMembership(selected: seq<int>, id: int)
    ensures id in Toggle(selected, id) <==> id !in selected
    ensures forall y :: y != id ==> (y in Toggle(selected, id) <==> y in selected)
  {
  }

  /** A toggled selection still holds each id at most once. */
  lemma ToggleKeepsSet(selected: seq<int>, id: int)
    requires NoDuplicates(selected)
    ensures NoDuplicates(Toggle(selected, id))
    ensures |Toggle(selected, id)| == if id in selected then |selected| - 1 else |selected| + 1
  {
    if id in selected {
      RemoveOne(selected, id);
    }
  }

  /** Removing an id that occurs once shortens the sequence by one. */
  lemma {:induction false} RemoveOne(s: seq<int>, x: int)
    requires NoDuplicates(s) && x in s
    ensures |Without(s, x)| == |s| - 1
  {
    if s[0] == x {
      NotInWithout(s[1..], x);
    } else {
      assert NoDuplicates(s[1..]);
      RemoveOne(s[1..], x);
    }
  }

  /** Removing an absent id changes nothing. */
  lemma {:induction false} NotInWithout(s: seq<int>, x: int)
    requires x !in s
    ensures Without(s, x) == s
  {
    if s != [] {
      assert s[0] != x;
      NotInWithout(s[1..], x);
      assert [s[0]] + s[1..] == s;
    }
  }

  /**
   * Toggling the same id twice restores the selection as a set; as a sequence too when the
   * id was absent (a present id comes back at the end).
   */
  lemma ToggleTwice(selected: seq<int>, id: int)
    requires NoDuplicates(selected)
    ensures forall y :: y in Toggle(Toggle(selected, id), id) <==> y in selected
    ensures id !in selected ==> Toggle(Toggle(selected, id), id) == selected
  {
    if id !in selected {
      WithoutLast(selected, id);
    }
  }

  lemma {:induction false} WithoutLast(s: seq<int>, x: int)
    requires x !in s
    ensures Without(s + [x], x) == s
  {
    if s == [] {
      assert [x][1..] == [];
    } else {
      assert (s + [x])[1..] == s[1..] + [x];
      WithoutLast(s[1..], x);
      assert [s[0]] + s[1..] == s;
    }
  }

  /** The Assign button's `disabled` rule. */
  predicate AssignDisabled(selected: seq<int>, loading: bool) {
    |selected| == 0 || loading
  }

  /** A query string as its parameters, in order; values are the unencoded strings. */
  datatype Query = Query(path: string, params: seq<(string, string)>)

  /** The availability request built from the task's window. */
  function AvailabilityQuery(taskStart: string, taskEnd: string): (q: Query)
    ensures Param(q.params, "taskStart") == Some(taskStart) && Param(q.params, "taskEnd") == Some(taskEnd)
    ensures Param(q.params, "excludeTaskId") == None
  {
    Query("/api/soldier/available", [("taskStart", taskStart), ("taskEnd", taskEnd)])
  }

  /** How the server reads the optional `excludeTaskId` parameter: the first one with that key, if any. */
  function Param(params: seq<(string, string)>, key: string): (r: Option<string>)
    ensures r.Some? <==> exists i :: 0 <= i < |params| && params[i].0 == key
    ensures r.Some? ==> exists i :: 0 <= i < |params| && params[i] == (key, r.value)
  {
    if params == [] then None
    else if params[0].0 == key then Some(params[0].1)
    else
      var r := Param(params[1..], key);
      assert forall i :: 1 <= i < |params| ==> params[i] == params[1..][i - 1];
      r
  }

  /** The picker never asks the server to skip a task: the window is sent and no exclusion. */
  lemma QueryHasNoExclusion(taskStart: string, taskEnd: string)
    ensures var q := AvailabilityQuery(taskStart, taskEnd);
      Param(q.params, "excludeTaskId") == None
      && Param(q.params, "taskStart") == Some(taskStart)
      && Param(q.params, "taskEnd") == Some(taskEnd)
  {
  }

  /** How the assign request came back: an ok status, a non-ok status, or a rejected fetch. */
  datatype AssignReply = Accepted | Refused | Unreachable

  class Picker {
    var soldiers: seq<SoldierRecord>
    var selected: seq<int>
    var loading: bool
    var open: bool

    ghost predicate Valid()
      reads this
    {
      NoDuplicates(selected)
    }

    /** The dialog starts closed, with nothing listed or selected. */
    constructor ()
      ensures Valid() && soldiers == [] && selected == [] && !loading && !open
    {
      soldiers := [];
      selected := [];
      loading := false;
      open := false;
    }

    /** `onOpenChange` from the dialog itself (the trigger button or the close mark). */
    method SetOpen(b: bool)
      modifies this`open
      ensures open == b
    {
      open := b;
    }

    /** The start of `fetchAvailableSoldiers` (run whenever the dialog is open): loading is set and the query goes out. */
    method StartFetch(taskStart: string, taskEnd: string) returns (q: Query)
      modifies this`loading
      ensures loading && q == AvailabilityQuery(taskStart, taskEnd)
    {
      loading := true;
      q := AvailabilityQuery(taskStart, taskEnd);
    }

    /** `fetchAvailableSoldiers` once the reply is in: a parsed list replaces the shown one; loading ends either way. */
    method FetchAvailableSoldiers(reply: Option<seq<SoldierRecord>>)
      modifies this`soldiers, this`loading
      ensures soldiers == if reply.Some? then reply.value else old(soldiers)
      ensures !loading
    {
      if reply.Some? {
        soldiers := reply.value;
      }
      loading := false;
    }

    method ToggleSoldier(id: int)
      requires Valid()
      modifies this`selected
      ensures Valid() && selected == Toggle(old(selected), id)
      ensures AssignDisabled(selected, loading) <==> loading || (old(selected) == [id])
      ensures id in selected <==> id !in old(selected)
      ensures forall y :: y != id ==> (y in selected <==> y in old(selected))
    {
      ToggleKeepsSet(selected, id);
      ToggleMembership(selected, id);
      selected := Toggle(selected, id);
    }

    /** `handleClose`: the dialog closes and the selection empties. */
    method HandleClose()
      modifies this`open, this`selected
      ensures Valid() && !open && selected == []
      ensures AssignDisabled(selected, loading)
    {
      open := false;
      selected := [];
    }

    /**
     * `handleAssign`: posts the selected ids in the set's order. Only an ok reply closes the
     * dialog, clears the selection and runs `onAssignComplete` (when one is given).
     */
    method HandleAssign(reply: AssignReply, hasCallback: bool) returns (posted: seq<int>, callbackRun: bool)
      requires Valid()
      modifies this`open, this`selected
      ensures posted == old(selected)
      ensures reply == Accepted ==> !open && selected == [] && callbackRun == hasCallback
      ensures reply == Accepted ==> AssignDisabled(selected, loading)
      ensures reply != Accepted ==> open == old(open) && selected == old(selected) && !callbackRun
      ensures Valid()
    {
      posted := selected;
      callbackRun := false;
      if reply != Accepted {
        return;
      }
      open := false;
      selected := [];
      if hasCallback {
        callbackRun := true;
      }
    }
  }
}

=== FILE: soldier_service.dfy ===
/**
 * `SoldierService.hasConflict` (duplicated verbatim as `TaskService.hasConflict`):
 * does any task of a soldier strictly overlap a candidate window? The loop walks the
 * soldier's `tasks` set in an unspecified order and returns at the first overlap; a
 * date that fails to parse raises an error at the first comparison that meets it.
 */
module SoldierService {
  import opened Wrappers
  import opened TimeOverlap
  import opened Entities

  /** The message of the exception raised for an id that names no soldier. */
  const SoldierNotFound := "Soldier not found"

  /** Comparing the window [start, end] with one task: `timesOverlap(start, end, t.start, t.end)`. */
  function Compare(t: Task, start: string, end: string, parse: Parser): Result<bool, string>
    reads t`start, t`end
  {
    TimesOverlap(parse, start, end, t.start, t.end)
  }

  /** Every task in `tasks` compares without error and none overlaps the window. */
  ghost predicate NoConflict(tasks: set<Task>, start: string, end: string, parse: Parser)
    reads tasks`start, tasks`end
  {
    forall t :: t in tasks ==> Compare(t, start, end, parse) == Ok(false)
  }

  /** Every task in `tasks` compares without a parse error. */
  ghost predicate AllComparable(tasks: set<Task>, start: string, end: string, parse: Parser)
    reads tasks`start, tasks`end
  {
    forall t :: t in tasks ==> Compare(t, start, end, parse).Ok?
  }

  /**
   * `hasConflict(soldier, newTaskStart, newTaskEnd)`. Whatever order the set is walked in:
   * false exactly when every task compares as non-overlapping; true only for a real overlap;
   * an error only one of the comparisons raises; and no error when all dates parse.
   */
  method HasConflict(soldier: Soldier, newStart: string, newEnd: string, parse: Parser)
    returns (r: Result<bool, string>)
    ensures r == Ok(false) <==> NoConflict(soldier.tasks, newStart, newEnd, parse)
    ensures r == Ok(true) ==> exists t :: t in soldier.tasks && Compare(t, newStart, newEnd, parse) == Ok(true)
    ensures r.Err? ==> exists t :: t in soldier.tasks && Compare(t, newStart, newEnd, parse) == Err(r.error)
    ensures AllComparable(soldier.tasks, newStart, newEnd, parse) ==> r.Ok?
  {
    var remaining := soldier.tasks;
    while remaining != {}
      invariant remaining <= soldier.tasks
      invariant NoConflict(soldier.tasks - remaining, newStart, newEnd, parse)
      decreases remaining
    {
      var t :| t in remaining;
      var c := Compare(t, newStart, newEnd, parse);
      if c.Err? || c.value {
        return c;
      }
      remaining := remaining - {t};
    }
    assert soldier.tasks - remaining == soldier.tasks;
    return Ok(false);
  }

  /** Dropping tasks cannot create a conflict. */
  lemma NoConflictSubset(fewer: set<Task>, tasks: set<Task>, start: string, end: string, parse: Parser)
    requires fewer <= tasks && NoConflict(tasks, start, end, parse)
    ensures NoConflict(fewer, start, end, parse)
  {
  }

  /** A soldier with no tasks never conflicts, even when the window's dates do not parse. */
  lemma NoTasksNoConflict(tasks: set<Task>, start: string, end: string, parse: Parser)
    requires tasks == {}
    ensures NoConflict(tasks, start, end, parse)
  {
  }

  /** An unparseable window start is reported as soon as the soldier has any task. */
  lemma BadStartIsReported(tasks: set<Task>, start: string, end: string, parse: Parser)
    requires tasks != {} && parse(start).None?
    ensures !NoConflict(tasks, start, end, parse)
    ensures forall t :: t in tasks ==> Compare(t, start, end, parse) == Err(InvalidDate(start))
  {
    var t :| t in tasks;
    assert Compare(t, start, end, parse).Err?;
  }
}

=== FILE: task_add.dfy ===
/**
 * The task form dialog: its record of text fields, the picked start and end dates with
 * their "HH:MM" times, and the submit handler that checks the fields, combines each date
 * with its time and hands the finished record to the page.
 *
 * Dates are local instants in milliseconds (no time zone); `toISOString` is an abstract
 * formatter.
 */
module TaskAdd {
  import opened Wrappers
  import opened ClientTypes
  import Calendar
  import opened Text

  /** `initialTaskSet`: every text field empty, no id. */
  const InitialTask := TaskRecord(None, "", "", "", "", Some(""), Some(""), Some(""))

  /** The inputs `handleChange` is wired to, by their `name` attribute. */
  datatype TaskField = NameField | DescriptionField | LocationField | ReasonField

  function Field(t: TaskRecord, f: TaskField): string {
    match f
    case NameField => t.name
    case DescriptionField => t.description
    case LocationField => t.location
    case ReasonField => t.reason
  }

  /** `{...prev, [name]: value}`. */
  function WithField(t: TaskRecord, f: TaskField, value: string): TaskRecord {
    match f
    case NameField => t.(name := value)
    case DescriptionField => t.(description := value)
    case LocationField => t.(location := value)
    case ReasonField => t.(reason := value)
  }

  /** A change reads back as the value typed and leaves every other field, the id and the dates as they were. */
  lemma ChangeOnlyNamedField(t: TaskRecord, f: TaskField, value: string)
    ensures forall g :: Field(WithField(t, f, value), g) == if g == f then value else Field(t, g)
    ensures var u := WithField(t, f, value);
      u.id == t.id && u.start == t.start && u.end == t.end && u.created == t.created
  {
  }

  // ---------------------------------------------------------------------------
  // "HH:MM" times

  /**
   * `Number(s)` for a piece of a time string: a run of decimal digits is its value and the
   * empty string is 0; anything else is NaN (`None`).
   */
  function JsNumber(s: string): (r: Option<int>)
    ensures r.Some? <==> forall i :: 0 <= i < |s| ==> IsDigit(s[i])
    ensures r.Some? ==> r.value >= 0
    ensures s == "" ==> r == Some(0)
  {
    if forall i :: 0 <= i < |s| ==> IsDigit(s[i]) then Some(DigitsValue(s)) else None
  }

  /**
   * `const [h, m] = time.split(":").map(Number)`: the hours and minutes, or `None` when either
   * is NaN or missing (the date then becomes invalid).
   */
  function ParseTime(time: string): (r: Option<(int, int)>)
    ensures ':' !in time ==> r == None
    ensures r.Some? ==> r.value.0 >= 0 && r.value.1 >= 0
  {
    var parts := Split(time, ':');
    assert ':' !in time ==> parts == [time] by {
      if ':' !in time {
        SplitNoSeparator(time, ':');
      }
    }
    if |parts| < 2 then None
    else
      var h := JsNumber(parts[0]);
      var m := JsNumber(parts[1]);
      if h.Some? && m.Some? then Some((h.value, m.value)) else None
  }

  /** A time as a time input shows it, "HH:MM" with two digits each. */
  function FormatTime(h: int, m: int): string
    requires 0 <= h < 24 && 0 <= m < 60
  {
    [DigitChar(h / 10), DigitChar(h % 10), ':', DigitChar(m / 10), DigitChar(m % 10)]
  }

  /** Two digits read back as their value. */
  lemma TwoDigits(a: int, b: int)
    requires 0 <= a < 10 && 0 <= b < 10
    ensures JsNumber([DigitChar(a), DigitChar(b)]) == Some(10 * a + b)
  {
    var s := [DigitChar(a), DigitChar(b)];
    assert forall i :: 0 <= i < |s| ==> IsDigit(s[i]);
    assert s[..1] == [DigitChar(a)];
    assert [DigitChar(a)][..0] == [];
    assert DigitsValue([DigitChar(a)]) == a;
    assert DigitsValue(s) == DigitsValue(s[..1]) * 10 + b;
  }

  /** Every "HH:MM" time of a day reads back as its hours and minutes. */
  lemma TimeRoundTrip(h: int, m: int)
    requires 0 <= h < 24 && 0 <= m < 60
    ensures ParseTime(FormatTime(h, m)) == Some((h, m))
  {
    var h1, h2, m1, m2 := DigitChar(h / 10), DigitChar(h % 10), DigitChar(m / 10), DigitChar(m % 10);
    SplitCons(m2, "", ':');
    assert [m2] + "" == [m2];
    assert Split([m2], ':') == [[m2]];
    SplitCons(m1, [m2], ':');
    assert [m1] + [m2] == [m1, m2];
    assert Split([m1, m2], ':') == [[m1, m2]];
    assert [':'] + [m1, m2] == [':', m1, m2];
    assert [h2] + [':', m1, m2] == [h2, ':', m1, m2];
    SplitCons(':', [m1, m2], ':');
    assert Split([':', m1, m2], ':') == ["", [m1, m2]];
    SplitCons(h2, [':', m1, m2], ':');
    assert [h2] + "" == [h2];
    assert ["", [m1, m2]][1..] == [[m1, m2]];
    assert Split([h2, ':', m1, m2], ':') == [[h2], [m1, m2]];
    SplitCons(h1, [h2, ':', m1, m2], ':');
    assert [h1] + [h2, ':', m1, m2] == FormatTime(h, m);
    assert [h1] + [h2] == [h1, h2];
    assert Split(FormatTime(h, m), ':') == [[h1, h2], [m1, m2]];
    TwoDigits(h / 10, h % 10);
    TwoDigits(m / 10, m % 10);
  }

  /** A time with no minute part is invalid; an empty minute part reads as zero. */
  lemma MinutesRequired()
    ensures ParseTime("12") == None
    ensures ParseTime("12:") == Some((12, 0))
  {
    SplitCons('2', "", ':');
    SplitCons('1', "2", ':');
    assert "12" == ['1'] + "2";
    SplitCons(':', "", ':');
    SplitCons('2', ":", ':');
    SplitCons('1', "2:", ':');
    assert "12:" == ['1'] + "2:";
    assert "2:" == ['2'] + ":";
    assert JsNumber("12") == Some(12) by {
      assert "12"[..1] == "1";
      assert "1"[..0] == "";
    }
  }

  /**
   * `date.setHours(h, m, 0)` on a local instant: the same day, the new hours and minutes,
   * zero seconds and the milliseconds kept (out-of-range values carry, as in ECMA-262 MakeTime).
   */
  function SetHours(t: int, h: int, m: int): (r: int)
    ensures 0 <= h < 24 && 0 <= m < 60 ==>
              r / Calendar.MsPerDay == t / Calendar.MsPerDay
              && r % Calendar.MsPerDay == h * 3_600_000 + m * 60_000 + t % 1000
  {
    (t / Calendar.MsPerDay) * Calendar.MsPerDay + h * 3_600_000 + m * 60_000 + t % 1000
  }

  /** For a time of day, the result lies on the picked day at exactly h:m:00 plus the old milliseconds. */
  lemma SetHoursSameDay(t: int, h: int, m: int)
    requires 0 <= h < 24 && 0 <= m < 60
    ensures SetHours(t, h, m) / Calendar.MsPerDay == t / Calendar.MsPerDay
    ensures SetHours(t, h, m) % Calendar.MsPerDay == h * 3_600_000 + m * 60_000 + t % 1000
  {
  }

  // ---------------------------------------------------------------------------
  // The form

  /** A text value is truthy when present and non-empty. */
  predicate Truthy(s: Option<string>) {
    s.Some? && s.value != ""
  }

  /** `!taskData.name || !taskData.description || !taskData.location`; the reason is optional. */
  predicate MissingInformation(t: TaskRecord) {
    t.name == "" || t.description == "" || t.location == ""
  }

  /** What a submit did: nothing (no user), an alert, an invalid date (the ISO conversion throws), or a record handed on. */
  datatype Submission = NoUser | IncompleteInformation | MissingDates | InvalidDate | Submitted(task: TaskRecord)

  /** Rendering the form for an existing task reads its dates back, which throws for one that does not parse. */
  predicate Renderable(t: TaskRecord, parse: Calendar.DateParser) {
    (Truthy(t.start) ==> parse(t.start.value).Some?) && (Truthy(t.end) ==> parse(t.end.value).Some?)
  }

  class TaskForm {
    var taskData: TaskRecord
    var open: bool
    var startDate: Option<int>
    var startTime: string
    var endDate: Option<int>
    var endTime: string

    /**
     * The form for `currentTask`, or an empty one. An existing task's dates are parsed and
     * their UTC "HH:MM" (`toISOString().slice(11, 16)`, abstract here) prefills the times;
     * otherwise the times are "12:00" and "13:00" and no date is picked.
     */
    constructor (currentTask: Option<TaskRecord>, parse: Calendar.DateParser, utcTime: int -> string)
      requires currentTask.Some? ==> Renderable(currentTask.value, parse)
      ensures taskData == if currentTask.Some? then currentTask.value else InitialTask
      ensures !open
      ensures currentTask.Some? && Truthy(currentTask.value.start)
              ==> startDate == parse(currentTask.value.start.value) && startTime == utcTime(startDate.value)
      ensures currentTask.None? || !Truthy(currentTask.value.start) ==> startDate == None && startTime == "12:00"
      ensures currentTask.Some? && Truthy(currentTask.value.end)
              ==> endDate == parse(currentTask.value.end.value) && endTime == utcTime(endDate.value)
      ensures currentTask.None? || !Truthy(currentTask.value.end) ==> endDate == None && endTime == "13:00"
    {
      taskData := if currentTask.Some? then currentTask.value else InitialTask;
      open := false;
      if currentTask.Some? && Truthy(currentTask.value.start) {
        var picked := parse(currentTask.value.start.value);
        startDate, startTime := picked, utcTime(picked.value);
      } else {
        startDate, startTime := None, "12:00";
      }
      if currentTask.Some? && Truthy(currentTask.value.end) {
        var picked := parse(currentTask.value.end.value);
        endDate, endTime := picked, utcTime(picked.value);
      } else {
        endDate, endTime := None, "13:00";
      }
    }

    /** `handleChange` for the input named `f`. */
    method HandleChange(f: TaskField, value: string)
      modifies this`taskData
      ensures taskData == WithField(old(taskData), f, value)
      ensures Field(taskData, f) == value
      ensures forall g :: g != f ==> Field(taskData, g) == Field(old(taskData), g)
    {
      ChangeOnlyNamedField(taskData, f, value);
      taskData := WithField(taskData, f, value);
    }

    /** `onOpenChange` from the dialog itself (the trigger button or the close mark). */
    method SetOpen(b: bool)
      modifies this`open
      ensures open == b
    {
      open := b;
    }

    /** `handleReset`. */
    method HandleReset()
      modifies this`taskData
      ensures taskData == InitialTask
    {
      taskData := InitialTask;
    }

    /** The date pickers' callbacks. */
    method PickStart(date: Option<int>, time: string)
      modifies this`startDate, this`startTime
      ensures startDate == date && startTime == time
    {
      startDate, startTime := date, time;
    }

    method PickEnd(date: Option<int>, time: string)
      modifies this`endDate, this`endTime
      ensures endDate == date && endTime == time
    {
      endDate, endTime := date, time;
    }

    /**
     * `handleSubmit`; the signed-in user, the clock and `toISOString` are parameters. The
     * record goes out exactly when the three text fields are filled, both dates are picked
     * and both times read as numbers: nothing compares the end with the start.
     */
    method HandleSubmit(hasUser: bool, now: int, iso: int -> string) returns (outcome: Submission)
      modifies this`taskData, this`open
      ensures !hasUser ==> outcome == NoUser
      ensures hasUser && MissingInformation(old(taskData)) ==> outcome == IncompleteInformation
      ensures hasUser && !MissingInformation(old(taskData)) && (startDate.None? || endDate.None?) ==> outcome == MissingDates
      ensures outcome.Submitted? <==>
        hasUser && !MissingInformation(old(taskData)) && startDate.Some? && endDate.Some?
        && ParseTime(startTime).Some? && ParseTime(endTime).Some?
      ensures outcome.Submitted? ==>
        var (sh, sm) := ParseTime(startTime).value;
        var (eh, em) := ParseTime(endTime).value;
        outcome.task == TaskRecord(old(taskData).id, old(taskData).name, old(taskData).description,
                                   old(taskData).location, old(taskData).reason,
                                   Some(iso(SetHours(startDate.value, sh, sm))),
                                   Some(iso(SetHours(endDate.value, eh, em))),
                                   Some(iso(now)))
      ensures outcome.Submitted? ==> taskData == InitialTask && !open
      ensures !outcome.Submitted? ==> taskData == old(taskData) && open == old(open)
    {
      if !hasUser {
        return NoUser;
      }
      if MissingInformation(taskData) {
        return IncompleteInformation;
      }
      if startDate.None? || endDate.None? {
        return MissingDates;
      }
      var startParts := ParseTime(startTime);
      var endParts := ParseTime(endTime);
      if startParts.None? || endParts.None? {
        return InvalidDate;
      }
      var startDateTime := SetHours(startDate.value, startParts.value.0, startParts.value.1);
      var endDateTime := SetHours(endDate.value, endParts.value.0, endParts.value.1);
      var finalTask := TaskRecord(taskData.id, taskData.name, taskData.description, taskData.location,
                                  taskData.reason, Some(iso(startDateTime)), Some(iso(endDateTime)), Some(iso(now)));
      open := false;
      taskData := InitialTask;
      return Submitted(finalTask);
    }
  }
}

=== FILE: task_page.dfy ===
/**
 * The task page's list of tasks and how each server reply changes it: the initial fetch,
 * a new task and a deletion.
 */
module TaskPage {
  import opened Wrappers
  import opened ClientTypes
  import opened ListUpdates

  function TaskId(t: TaskRecord): Option<int> {
    t.id
  }

  class TaskList {
    var tasks: seq<TaskRecord>
    var loading: bool

    constructor ()
      ensures tasks == [] && loading
    {
      tasks := [];
      loading := true;
    }

    /** The mount fetch once the reply is in: a parsed list replaces the tasks; loading ends either way. */
    method FetchTasks(reply: Option<seq<TaskRecord>>)
      modifies this`tasks, this`loading
      ensures tasks == if reply.Some? then reply.value else old(tasks)
      ensures !loading
    {
      if reply.Some? {
        tasks := reply.value;
      }
      loading := false;
    }

    /**
     * `handleAddTask`: with a user and an ok reply, the created task goes at the end (the
     * others keep their places), or an empty body replaces the list by a refetch.
     */
    method HandleAddTask(hasUser: bool, reply: AddReply<TaskRecord>)
      modifies this`tasks
      ensures !hasUser || reply == AddRefused || reply == AddUnreachable ==> tasks == old(tasks)
      ensures hasUser && reply.Created? ==>
                |tasks| == |old(tasks)| + 1 && tasks[..|old(tasks)|] == old(tasks) && tasks[|old(tasks)|] == reply.item
      ensures hasUser && reply.EmptyBody? ==>
                tasks == if reply.refetched.Some? then reply.refetched.value else old(tasks)
    {
      if !hasUser {
        return;
      }
      match reply
      case AddRefused =>
      case AddUnreachable =>
      case Created(item) =>
        tasks := tasks + [item];
      case EmptyBody(refetched) =>
        if refetched.Some? {
          tasks := refetched.value;
        }
    }

    /** A card's `onDelete`: the tasks whose id differs stay, in their order. */
    method Delete(id: Option<int>)
      modifies this`tasks
      ensures tasks == RemoveKey(old(tasks), TaskId, id)
      ensures forall t :: t in tasks <==> t in old(tasks) && t.id != id
    {
      var before := tasks;
      tasks := RemoveKey(tasks, TaskId, id);
      forall t
        ensures t in tasks <==> t in before && t.id != id
      {
        RemoveKeyMembers(before, TaskId, id, t);
      }
    }
  }
}

=== FILE: task_service.dfy ===
/**
 * `TaskService.assignSoldiers(taskId, soldierIds)`: look the task up, then for each
 * requested soldier id (a `Set<Long>`, walked in an unspecified order) look the soldier
 * up, reject it if it already has an overlapping task, and otherwise add it to
 * `task.assigned` and the task to `soldier.tasks`. The first failure ends the call with
 * an IllegalArgumentException, so soldiers handled before it stay added on both sides.
 *
 * The repositories are maps from id to entity; `save` of an entity that is already
 * stored is the identity here and is not modelled as a separate step.
 */
module TaskService {
  import opened Wrappers
  import opened TimeOverlap
  import opened Entities
  import opened SoldierService

  const TaskNotFound := "Task not found"

  function ConflictMessage(firstName: string): string {
    "Soldier " + firstName + " has a conflicting task"
  }

  /** The soldiers that the ids in `ids` name in the repository. */
  ghost function Named(repo: map<int, Soldier>, ids: set<int>): set<Soldier> {
    set id | id in ids && id in repo :: repo[id]
  }

  /** A task compared with its own window overlaps exactly when that window is non-empty. */
  lemma SelfConflict(task: Task, parse: Parser)
    ensures Compare(task, task.start, task.end, parse) == Ok(true) <==> NonEmptyWindow(parse, task.start, task.end)
  {
    if parse(task.start).Some? && parse(task.end).Some? {
      SelfOverlap(parse, task.start, task.end);
    }
  }

  lemma NamedStep(repo: map<int, Soldier>, ids: set<int>, id: int)
    requires id in repo
    ensures Named(repo, ids + {id}) == Named(repo, ids) + {repo[id]}
  {
  }

  /** Both dates of the window parse and start comes strictly before end. */
  ghost predicate NonEmptyWindow(parse: Parser, start: string, end: string) {
    parse(start).Some? && parse(end).Some? && parse(start).value < parse(end).value
  }

  /** Distinct ids in `ids` name distinct soldiers (true of a JPA repository). */
  ghost predicate DistinctEntities(repo: map<int, Soldier>, ids: set<int>) {
    forall i, j :: i in ids && j in ids && i in repo && j in repo && i != j ==> repo[i] != repo[j]
  }

  /** Why the soldier with id `id` was rejected with message `msg`, in the current state. */
  ghost predicate RejectedFor(soldierRepo: map<int, Soldier>, id: int, task: Task, parse: Parser, msg: string)
    reads soldierRepo.Values, task, if id in soldierRepo then soldierRepo[id].tasks else {}
  {
    if id !in soldierRepo then msg == SoldierNotFound
    else
      var s := soldierRepo[id];
      (msg == ConflictMessage(s.firstName) && exists t :: t in s.tasks && Compare(t, task.start, task.end, parse) == Ok(true))
      || (exists t :: t in s.tasks && Compare(t, task.start, task.end, parse) == Err(msg))
  }

  method AssignSoldiers(taskRepo: map<int, Task>, soldierRepo: map<int, Soldier>, taskId: int,
                        soldierIds: set<int>, parse: Parser)
    returns (r: Result<Task, string>, ghost done: set<int>)
    modifies (if taskId in taskRepo then {taskRepo[taskId]} else {})`assignedSoldiers
    modifies (if taskId in taskRepo then soldierRepo.Values else {})`tasks
    // an unknown task id fails before anything is looked at or changed
    ensures taskId !in taskRepo ==> r == Err(TaskNotFound)
    // `done` is the part of the request that was applied, on success all of it
    ensures taskId in taskRepo ==> done <= soldierIds && done <= soldierRepo.Keys
    ensures r.Ok? ==> taskId in taskRepo && r.value == taskRepo[taskId] && done == soldierIds
    // the new state: both sides gain exactly the applied pairs, nothing is removed
    ensures taskId in taskRepo ==>
      var task := taskRepo[taskId];
      && task.assignedSoldiers == (if done == {} then old(task.assignedSoldiers)
                                   else Some(old(task.AssignedSet()) + Named(soldierRepo, done)))
      && (forall s :: s in soldierRepo.Values ==>
            s.tasks == if s in Named(soldierRepo, done) then old(s.tasks) + {task} else old(s.tasks))
    // every soldier that was added had no task overlapping the task's own window
    ensures taskId in taskRepo ==>
      forall id :: id in done ==>
        old(NoConflict(soldierRepo[id].tasks, taskRepo[taskId].start, taskRepo[taskId].end, parse))
    // a soldier already holding this very task is rejected whenever the window is non-empty
    ensures r.Ok? ==>
      forall id :: id in soldierIds && old(taskRepo[taskId] in soldierRepo[id].tasks) ==>
        !NonEmptyWindow(parse, taskRepo[taskId].start, taskRepo[taskId].end)
    // a failure names a requested id that was not applied, and why
    ensures r.Err? && taskId in taskRepo ==>
      exists id :: id in soldierIds && id !in done && RejectedFor(soldierRepo, id, taskRepo[taskId], parse, r.error)
    // with every soldier present, distinct and free, the assignment succeeds
    ensures taskId in taskRepo && DistinctEntities(soldierRepo, soldierIds)
            && (forall id :: id in soldierIds ==>
                  id in soldierRepo
                  && old(NoConflict(soldierRepo[id].tasks, taskRepo[taskId].start, taskRepo[taskId].end, parse)))
            ==> r.Ok?
    // the two sides stay each other's inverse
    ensures old(Mirrored(taskRepo.Values, soldierRepo.Values)) ==> Mirrored(taskRepo.Values, soldierRepo.Values)
  {
    done := {};
    if taskId !in taskRepo {
      return Err(TaskNotFound), done;
    }
    var task := taskRepo[taskId];
    var failure;
    failure, done := AssignAll(task, soldierRepo, soldierIds, parse);
    forall s | s in soldierRepo.Values
      ensures s.tasks == if s in Named(soldierRepo, done) then old(s.tasks) + {task} else old(s.tasks)
    {
      var i := KeyOf(soldierRepo, s);
    }
    if failure.Some? {
      return Err(failure.value), done;
    }
    forall id | id in soldierIds && old(task in soldierRepo[id].tasks)
      ensures !NonEmptyWindow(parse, task.start, task.end)
    {
      SelfConflict(task, parse);
    }
    return Ok(task), done;
  }

  /**
   * The loop of `assignSoldiers` over the requested ids, for a task already found.
   * `failure` is the message of the exception that ends it early, if any.
   */
  method AssignAll(task: Task, soldierRepo: map<int, Soldier>, soldierIds: set<int>, parse: Parser)
    returns (failure: Option<string>, ghost done: set<int>)
    modifies task`assignedSoldiers, soldierRepo.Values`tasks
    ensures done <= soldierIds && done <= soldierRepo.Keys
    ensures failure.None? ==> done == soldierIds
    ensures failure.Some? ==>
      exists id :: id in soldierIds && id !in done && RejectedFor(soldierRepo, id, task, parse, failure.value)
    ensures task.AssignedSet() == old(task.AssignedSet()) + Named(soldierRepo, done)
    ensures if done == {} then task.assignedSoldiers == old(task.assignedSoldiers)
            else task.assignedSoldiers.Some?
    ensures forall i :: i in soldierRepo ==>
              soldierRepo[i].tasks == if soldierRepo[i] in Named(soldierRepo, done) then old(soldierRepo[i].tasks) + {task}
                                      else old(soldierRepo[i].tasks)
    ensures forall i :: i in done ==> old(NoConflict(soldierRepo[i].tasks, task.start, task.end, parse))
  {
    done := {};
    ghost var applied: set<Soldier> := {};
    failure := None;
    var remaining := soldierIds;
    while remaining != {} && failure.None?
      invariant remaining <= soldierIds && done == soldierIds - remaining
      invariant done <= soldierRepo.Keys && applied == Named(soldierRepo, done)
      invariant forall x :: x in task.AssignedSet() <==> x in old(task.AssignedSet()) || x in applied
      invariant if done == {} then task.assignedSoldiers == old(task.assignedSoldiers)
                else task.assignedSoldiers.Some?
      invariant forall i, t :: i in soldierRepo ==>
                  (t in soldierRepo[i].tasks <==> t in old(soldierRepo[i].tasks) || (t == task && soldierRepo[i] in applied))
      invariant forall i :: i in done ==> old(NoConflict(soldierRepo[i].tasks, task.start, task.end, parse))
      invariant failure.Some? ==> exists id :: id in remaining && RejectedFor(soldierRepo, id, task, parse, failure.value)
      decreases remaining, failure.None?
    {
      ghost var next := Witness(remaining);
      var id :| id in remaining;
      if id !in soldierRepo {
        failure := Some(SoldierNotFound);
      } else {
        var soldier := soldierRepo[id];
        ghost var held := soldier.tasks;
        failure := AssignOne(task, soldier, parse);
        if failure.None? {
          NoConflictSubset(old(soldier.tasks), held, task.start, task.end, parse);
          NamedStep(soldierRepo, done, id);
          done, applied := done + {id}, applied + {soldier};
          remaining := remaining - {id};
        }
      }
    }
  }

  /**
   * One soldier of the loop: reject it when `hasConflict` raises or reports an overlap,
   * otherwise add the pair on both sides.
   */
  method AssignOne(task: Task, soldier: Soldier, parse: Parser) returns (failure: Option<string>)
    modifies task`assignedSoldiers, soldier`tasks
    ensures failure.None? ==> NoConflict(old(soldier.tasks), task.start, task.end, parse)
    ensures failure.None? ==> task.assignedSoldiers == Some(old(task.AssignedSet()) + {soldier})
    ensures failure.None? ==> soldier.tasks == old(soldier.tasks) + {task}
    ensures failure.Some? ==> unchanged(task`assignedSoldiers, soldier`tasks)
    ensures failure.Some? ==>
      (failure.value == ConflictMessage(soldier.firstName)
         && exists t :: t in soldier.tasks && Compare(t, task.start, task.end, parse) == Ok(true))
      || (exists t :: t in soldier.tasks && Compare(t, task.start, task.end, parse) == Err(failure.value))
  {
    var conflict := HasConflict(soldier, task.GetStart(), task.GetEnd(), parse);
    if conflict.Err? {
      return Some(conflict.error);
    }
    if conflict.value {
      return Some(ConflictMessage(soldier.GetFirstName()));
    }
    var current := task.GetAssigned();
    task.SetAssigned(Some(current + {soldier}));
    var held := soldier.GetTasks();
    soldier.SetTasks(held + {task});
    return None;
  }
}

=== FILE: text.dfy ===
/**
 * String helpers shared by the client and the server models: splitting on a separator
 * character as JavaScript's `split` does (every piece kept) and as Java's `String.split`
 * does (trailing empty pieces dropped), and decimal rendering of integers.
 */
module Text {
  /** `s.split(sep)`: the pieces between separators, empty pieces included. */
  function Split(s: string, sep: char): (r: seq<string>)
    ensures |r| >= 1
    ensures forall i :: 0 <= i < |r| ==> sep !in r[i]
  {
    if s == [] then [""]
    else
      var rest := Split(s[1..], sep);
      if s[0] == sep then [""] + rest else [[s[0]] + rest[0]] + rest[1..]
  }

  /** `parts.join(sep)`. */
  function Join(parts: seq<string>, sep: char): string {
    if |parts| == 0 then ""
    else if |parts| == 1 then parts[0]
    else parts[0] + [sep] + Join(parts[1..], sep)
  }

  /** Splitting loses nothing: joining the pieces gives the string back. */
  lemma {:induction false} SplitJoin(s: string, sep: char)
    ensures Join(Split(s, sep), sep) == s
  {
    if s != [] {
      SplitJoin(s[1..], sep);
      var rest := Split(s[1..], sep);
      if s[0] == sep {
        assert ([""] + rest)[1..] == rest;
      } else {
        var r := [[s[0]] + rest[0]] + rest[1..];
        if |rest| == 1 {
          assert Join(r, sep) == [s[0]] + rest[0];
        } else {
          assert r[1..] == rest[1..];
          assert Join(rest, sep) == rest[0] + [sep] + Join(rest[1..], sep);
        }
      }
    }
  }

  /** One step of `Split` on a string written as its first character and the rest. */
  lemma SplitCons(c: char, rest: string, sep: char)
    ensures Split([c] + rest, sep)
            == if c == sep then [""] + Split(rest, sep) else [[c] + Split(rest, sep)[0]] + Split(rest, sep)[1..]
  {
    assert ([c] + rest)[1..] == rest;
  }

  /** A string without the separator is a single piece. */
  lemma {:induction false} SplitNoSeparator(s: string, sep: char)
    requires sep !in s
    ensures Split(s, sep) == [s]
  {
    if s != [] {
      SplitNoSeparator(s[1..], sep);
      SplitCons(s[0], s[1..], sep);
      assert [s[0]] + s[1..] == s;
    }
  }

  /** A first field free of the separator comes off as the first piece. */
  lemma {:induction false} SplitFirstField(field: string, sep: char, rest: string)
    requires sep !in field
    ensures Split(field + [sep] + rest, sep) == [field] + Split(rest, sep)
  {
    if field == [] {
      SplitCons(sep, rest, sep);
      assert field + [sep] + rest == [sep] + rest;
    } else {
      SplitFirstField(field[1..], sep, rest);
      SplitCons(field[0], field[1..] + [sep] + rest, sep);
      assert field + [sep] + rest == [field[0]] + (field[1..] + [sep] + rest);
      assert [field[0]] + field[1..] == field;
    }
  }

  /** Java's `split` with limit 0: the JavaScript pieces with trailing empty pieces removed, unless nothing matched. */
  function JavaSplit(s: string, sep: char): (r: seq<string>)
    ensures sep !in s ==> r == [s]
    ensures sep in s ==> |r| == 0 || r[|r| - 1] != ""
    ensures sep in s ==> r <= Split(s, sep) && forall i :: |r| <= i < |Split(s, sep)| ==> Split(s, sep)[i] == ""
  {
    if sep !in s then [s] else DropTrailingEmpty(Split(s, sep))
  }

  function DropTrailingEmpty(parts: seq<string>): (r: seq<string>)
    ensures r <= parts
    ensures |r| == 0 || r[|r| - 1] != ""
    ensures forall i :: |r| <= i < |parts| ==> parts[i] == ""
  {
    if |parts| == 0 || parts[|parts| - 1] != "" then parts else DropTrailingEmpty(parts[..|parts| - 1])
  }

  function DigitChar(d: int): (c: char)
    requires 0 <= d < 10
    ensures '0' <= c <= '9' && c as int - '0' as int == d
  {
    ('0' as int + d) as char
  }

  predicate IsDigit(c: char) {
    '0' <= c <= '9'
  }

  /** The value of a string of decimal digits, most significant first; "" is 0. */
  function DigitsValue(s: string): (v: int)
    requires forall i :: 0 <= i < |s| ==> IsDigit(s[i])
    ensures v >= 0
    ensures |s| > 0 ==> v >= DigitsValue(s[..|s| - 1]) * 10
  {
    if s == [] then 0
    else
      assert IsDigit(s[|s| - 1]);
      DigitsValue(s[..|s| - 1]) * 10 + (s[|s| - 1] as int - '0' as int)
  }

  /** `Integer.toString`/string concatenation of an int: "-" and the digits of -n for a negative n, else the digits of n. */
  function IntToString(n: int): (r: string)
    ensures forall i :: 0 <= i < |r| ==> r[i] == '-' || IsDigit(r[i])
    ensures |r| > 0
    ensures n >= 0 ==> (forall i :: 0 <= i < |r| ==> IsDigit(r[i])) && DigitsValue(r) == n
    ensures n < 0 ==> r[0] == '-' && (forall i :: 1 <= i < |r| ==> IsDigit(r[i])) && DigitsValue(r[1..]) == -n
    ensures n >= 0 ==> (|r| > 1 ==> r[0] != '0')
    ensures n < 0 ==> |r| > 1 && (|r| > 2 ==> r[1] != '0')
  {
    if n < 0 then
      var d := NatToString(-n);
      assert ("-" + d)[1..] == d;
      "-" + d
    else NatToString(n)
  }

  /** The decimal digits of n, with no leading zero: they spell n back. */
  function NatToString(n: nat): (r: string)
    ensures forall i :: 0 <= i < |r| ==> IsDigit(r[i])
    ensures |r| > 0 && (|r| > 1 ==> r[0] != '0')
    ensures DigitsValue(r) == n
  {
    if n < 10 then
      var r := [DigitChar(n)];
      assert r[..0] == [];
      r
    else
      var prefix := NatToString(n / 10);
      var r := prefix + [DigitChar(n % 10)];
      assert r[..|r| - 1] == prefix;
      r
  }

  /** `"" + port` for the port `URI.getPort` reports when the URL has none. */
  lemma AbsentPort()
    ensures IntToString(-1) == "-1"
  {
    assert NatToString(1) == "1";
  }
}

=== FILE: time_overlap.dfy ===
/**
 * The backend's date parsing and strict interval-overlap test. The same pair of
 * private helpers (`parseDateTime`, `timesOverlap`) appears, identically, in
 * SoldierController, SoldierService and TaskService; it is modelled once here.
 *
 * Timestamps are integers (local date-time on a single, unbounded time line).
 * The date parser (ISO-8601 instant or local date-time) is an abstract partial
 * function `parse`: `None` stands for a `DateTimeParseException`.
 */
module TimeOverlap {
  import opened Wrappers

  type Instant = int
  type Parser = string -> Option<Instant>

  /** The message of the IllegalArgumentException raised for an unparseable date. */
  function InvalidDate(s: string): string {
    "Invalid date format: " + s
  }

  /** `parseDateTime`: the parsed instant, or the IllegalArgumentException it raises. */
  function ParseDateTime(parse: Parser, s: string): (r: Result<Instant, string>)
    ensures r.Ok? <==> parse(s).Some?
    ensures r.Ok? ==> r.value == parse(s).value
    ensures r.Err? ==> r.error == InvalidDate(s)
  {
    match parse(s)
    case Some(t) => Ok(t)
    case None => Err(InvalidDate(s))
  }

  /**
   * `s1.isBefore(e2) && s2.isBefore(e1)`: strict overlap. The later start comes before the
   * earlier end; intervals that only touch are disjoint.
   */
  predicate StrictOverlap(s1: Instant, e1: Instant, s2: Instant, e2: Instant)
    ensures s1 < e1 && s2 < e2 ==>
              (StrictOverlap(s1, e1, s2, e2) <==> (if s1 < s2 then s2 else s1) < (if e1 < e2 then e1 else e2))
    ensures e1 <= s2 || e2 <= s1 ==> !StrictOverlap(s1, e1, s2, e2)
  {
    s1 < e2 && s2 < e1
  }

  /**
   * `timesOverlap(start1, end1, start2, end2)`: the four strings are parsed in
   * argument order and the first one that fails raises its error.
   */
  function TimesOverlap(parse: Parser, start1: string, end1: string, start2: string, end2: string): (r: Result<bool, string>)
    ensures r.Ok? <==> parse(start1).Some? && parse(end1).Some? && parse(start2).Some? && parse(end2).Some?
    ensures r.Ok? ==> r.value == StrictOverlap(parse(start1).value, parse(end1).value, parse(start2).value, parse(end2).value)
    ensures parse(start1).None? ==> r == Err(InvalidDate(start1))
    ensures parse(start1).Some? && parse(end1).None? ==> r == Err(InvalidDate(end1))
    ensures parse(start1).Some? && parse(end1).Some? && parse(start2).None? ==> r == Err(InvalidDate(start2))
    ensures parse(start1).Some? && parse(end1).Some? && parse(start2).Some? && parse(end2).None? ==> r == Err(InvalidDate(end2))
  {
    match ParseDateTime(parse, start1)
    case Err(e) => Err(e)
    case Ok(s1) =>
      match ParseDateTime(parse, end1)
      case Err(e) => Err(e)
      case Ok(e1) =>
        match ParseDateTime(parse, start2)
        case Err(e) => Err(e)
        case Ok(s2) =>
          match ParseDateTime(parse, end2)
          case Err(e) => Err(e)
          case Ok(e2) => Ok(StrictOverlap(s1, e1, s2, e2))
  }

  /** The overlap test is symmetric in its two intervals (when all four dates parse). */
  lemma OverlapSymmetric(parse: Parser, start1: string, end1: string, start2: string, end2: string)
    requires TimesOverlap(parse, start1, end1, start2, end2).Ok?
    ensures TimesOverlap(parse, start2, end2, start1, end1) == TimesOverlap(parse, start1, end1, start2, end2)
  {
  }

  /** Intervals that only touch at an endpoint do not overlap, in either order. */
  lemma TouchingIsNoOverlap(a: Instant, b: Instant, c: Instant)
    ensures !StrictOverlap(a, b, b, c) && !StrictOverlap(b, c, a, b)
  {
  }

  /** An interval overlaps itself exactly when it is non-empty, start < end. */
  lemma SelfOverlap(parse: Parser, start: string, end: string)
    requires parse(start).Some? && parse(end).Some?
    ensures TimesOverlap(parse, start, end, start, end) == Ok(parse(start).value < parse(end).value)
  {
  }
}

=== FILE: wrappers.dfy ===
/** Optional values (Java null / JavaScript undefined) and error outcomes (thrown exceptions). */
module Wrappers {

  datatype Option<+T> = None | Some(value: T)

  datatype Result<+T, +E> = Ok(value: T) | Err(error: E)

  /** Lookup in a map that yields None for a missing key, as `Optional` / `Map.get` do. */
  function Get<K, V>(m: map<K, V>, k: K): (r: Option<V>)
    ensures r.Some? <==> k in m
    ensures r.Some? ==> r.value == m[k]
  {
    if k in m then Some(m[k]) else None
  }

  /** An element of a non-empty set, as a ghost witness for the such-that choices that walk a set. */
  lemma Witness<T>(s: set<T>) returns (w: T)
    requires s != {}
    ensures w in s
  {
    w :| w in s;
  }

  /** A key under which a map holds a given value. */
  lemma KeyOf<K, V>(m: map<K, V>, v: V) returns (k: K)
    requires v in m.Values
    ensures k in m && m[k] == v
  {
    k :| k in m && m[k] == v;
  }
}
